=== FILE: README.md ===
# Chorea/gait data preparation: synchronisation, label timelines, windowing

This project models, in Dafny, the data-preparation core of a pipeline that
detects gait and chorea severity in Huntington's-disease patients from wrist
accelerometer recordings. It covers four pieces:

- **Label timelines** (`read_label_data`). A video-annotation timeline
  file is split into sections by marker rows whose first cell is `T`.
  Rows between the second and third markers are chorea-severity
  intervals. Rows after the third marker, up to a fourth marker, are
  activity intervals. The
  intervals are given in video frames. They are painted onto two integer
  arrays at the sensor's sample rate:
  - the activity array is 1 on "walking" intervals and 0 elsewhere;
  - the severity array holds the severity level, or -1 where the level
    is unknown.
- **Synchronisation** (`sync_data`). The sensor stream and the two label
  streams are aligned on one shared event, given in seconds in each clock.
  The stream that reaches the event later loses its leading samples, and
  the sensor stream is cut to the label length. A time axis in seconds is
  built for the kept label samples.
- **Windowing** (`data_windowing`). The aligned streams are cut into
  overlapping windows of `width` samples with stride `width - overlap`.
  Each window gets:
  - a category label: the statistical mode, with ties going to the
    smallest code;
  - a severity value: the mean of the valid (non-negative) readings when
    they are a strict majority of the window, and -1 otherwise.
  
  The inclusion mask starts as one entry of 1 for every entry of the
  `std_idx` vector equal to 1; it is indexed over those entries, not over
  sample positions. Every entry from position `upper - overlap` on is
  then set to 0, where `upper` is the sample count rounded down to a
  whole number of strides. A negative `upper - overlap` counts from the
  end of the mask, as a Python slice does, and clamps to its start.
- **Moving standard deviation, argument checks** (`movingstd`). The
  window mode flag, the window size and the series length are checked
  before any arithmetic.

Python's behaviour is modelled explicitly where it matters (module `PyOps`):
- `int()` on a float truncates toward zero;
- `np.round` rounds half to even;
- slice bounds wrap when negative and clamp to the length;
- slice assignment replaces exactly the clamped range.

Errors that Python raises are `Failure` values of a `Result` type, one
constructor per raised condition. Sample rates are reals, and the
arithmetic on them is exact.

Some behaviours of the code are easy to misread, so they are stated here:
- the window count is `(N - width) // stride + 1` (preprocessing.py:162-165),
  which is not `N // stride`;
- the ambiguous activity code -9 takes part in a window's mode like any
  other code (preprocessing.py:173);
- the mode flag must equal `central`, `forward` or `backward` once
  lower-cased (preprocessing.py:47-50). Its docstring (preprocessing.py:41-42)
  says any contraction down to one letter is valid; see Findings;
- after synchronisation the sensor output can be shorter than the label
  outputs (read_data.py:199). The docstring (read_data.py:189-190) says the
  arrays end with the same size; see Findings;
- `data_windowing` windows its three streams one by one and never compares
  their lengths (preprocessing.py:162-165). Each output has the window count
  of its own stream, and the returned count is that of the label stream.

Files:
- `wrappers.dfy`: `Option` and `Result`.
- `pyops.dfy`: Python and numpy primitives.
- `sync.dfy`: module `Sync`.
- `label_timeline.dfy`: module `LabelTimeline`.
- `windowing.dfy`: module `Windowing`.
- `moving_std.dfy`: module `MovingStd`.

## Model

| member | source | states |
|---|---|---|
| PyOps.Trunc | read_data.py:192-193 | `int()` of a float is the integer next to it on the side of zero: never above a non-negative value, never below a negative one, within 1 of it |
| PyOps.RoundHalfEven | read_data.py:166 | the result is within 0.5 of the value, and an exact tie goes to the even neighbour |
| PyOps.SliceIndex | read_data.py:194-199 | a slice bound lands in `0..n`; in-range bounds stay as they are, negative bounds down to `-n` count from the end, a bound past the end clamps to `n` and one before `-n` clamps to 0 |
| PyOps.SliceFrom | read_data.py:194-197 | `s[i:]` keeps the elements from the normalised bound on, in order |
| PyOps.SliceTo | read_data.py:199 | `s[:j]` is the prefix of `s` of the normalised length |
| PyOps.AssignSlice | read_data.py:176 | `a[i:j] = v` keeps the length, sets exactly the normalised range to `v` and changes nothing else |
| Sync.AnchorsTruncate | read_data.py:192-193 | `SensorAnchor` and `VideoAnchor` are the event time in samples truncated toward zero: never further from zero than `rate * seconds`, and less than one sample short of it |
| Sync.LeadingDrops | read_data.py:192-195 | only the stream that reaches the event later is trimmed, by the difference of the two truncated anchors |
| Sync.SyncData | read_data.py:186-202 | output lengths, the index correspondence of every output with its input after the leading trim, and the time of each kept label sample, `(i + first) / rate` |
| Sync.TrimBy | read_data.py:194-201 | for given leading drops: the output lengths, the index correspondence with the inputs, and the time of each kept label sample |
| Sync.TimeAxis | read_data.py:200-201 | entry `i` of the time axis is `(i + first) / rate` |
| Sync.SyncNeverLengthens | read_data.py:194-199 | no output is longer than its input, and the sensor output is never longer than the label output |
| Sync.TimeAxisIncreasing | read_data.py:200-201 | the time axis starts at the trimmed time, advances by exactly one sample period and is strictly increasing |
| Sync.SyncIdempotent | read_data.py:192-199 | streams that are already aligned and of equal length come back unchanged, with time starting at 0 |
| Sync.SyncExample | read_data.py:192-199 | anchors 3 s and 5 s at 100 Hz drop 200 sensor samples; 1000 sensor and 750 label samples end at 750 each |
| Sync.SyncShortSensorCounterexample | read_data.py:187-199 | a sensor stream that ends before the labels leaves outputs of different lengths, contrary to the documented promise |
| Sync.SyncDataEqualLength | read_data.py:187-199 | the corrected alignment: all four outputs have one length and are prefixes of the code's outputs |
| LabelTimeline.StripLeft | read_data.py:133 | the result is a suffix of the cell, everything removed in front of it is whitespace, and it does not start with whitespace |
| LabelTimeline.StripRight | read_data.py:133 | the result is a prefix of the cell, everything removed behind it is whitespace, and it does not end with whitespace |
| LabelTimeline.StrippedLiesInside | read_data.py:133 | the text `int()` reads is a contiguous piece of the cell, and a blank cell leaves nothing to read |
| LabelTimeline.ParseInt | read_data.py:133-134 | a blank cell is not an integer; a plain digit string reads as its decimal value; an accepted cell contains a digit, and a negative result comes from a cell with a minus sign |
| LabelTimeline.ParseIntGrammar | read_data.py:133-134 | a cell reads as an integer exactly when, once its surrounding whitespace is removed, it is a non-empty digit string, optionally after one `+` or `-`; the value is the digits' decimal value, negated after `-` (so `"12a"` and `"-"` are rejected) |
| LabelTimeline.ParseIntPadded | read_data.py:133-134 | every integer written in decimal, with any whitespace before and after it, reads back as itself, and so does a non-negative one written with a leading `+` |
| LabelTimeline.ShowNat | read_data.py:133 | the decimal rendering is non-empty and all digits |
| LabelTimeline.DigitsValueOfShowNat | read_data.py:133 | reading back the decimal digits of `n` gives `n` |
| LabelTimeline.ParseIntRoundTrip | read_data.py:133-134 | `int()` reads every decimally written integer, signed or not, back as itself |
| LabelTimeline.ParseInterval | read_data.py:133-135 | a row becomes an interval exactly when it has at least five cells and cells 2 and 3 are integers; the interval holds those two integers and cell 4; the error of a failing row follows Python's evaluation order: no cell 2 gives `MissingColumn`, a bad cell 2 names cell 2, then no cell 3 gives `MissingColumn`, a bad cell 3 names cell 3, and a row of four good cells gives `MissingColumn` |
| LabelTimeline.Scan | read_data.py:123-143 | a failed read reports a missing cell or a non-integer cell, and after the third marker no severity interval is added; `ScanMatchesSectionRows` states the full result |
| LabelTimeline.SectionRows | read_data.py:125-143 | a section holds only non-empty rows that are not markers |
| LabelTimeline.ParseAll | read_data.py:133-143 | every row of a section becomes one interval, in order: interval `i` is row `i` parsed, and the parse fails exactly when some row fails |
| LabelTimeline.ParseAllFirstFailure | read_data.py:133-143 | a failing parse reports the error of the first failing row: some row fails with exactly that error and every row before it parses |
| LabelTimeline.SectionRowsAfterSection | read_data.py:128-131 | once more markers have passed than a section's number, no row belongs to that section |
| LabelTimeline.ScanMatchesSectionRows | read_data.py:123-143 | the one-pass row loop equals the per-section definition: severity rows are section 2 parsed, activity rows are section 3 parsed, and the first malformed row of either fails the read, section 2 first |
| LabelTimeline.SeverityRowStep | read_data.py:132-136 | a data row after the second marker adds one severity interval, or fails the read first |
| LabelTimeline.ActivityRowStep | read_data.py:137-143 | a data row after the third marker adds one activity interval, or fails the read first |
| LabelTimeline.RowsBeforeSecondMarkerIgnored | read_data.py:126-135 | rows before the second marker are never parsed, so their content cannot change the outcome |
| LabelTimeline.NothingReadAfterFourthMarker | read_data.py:137-139 | the loop stops at the fourth marker: whatever follows is ignored |
| LabelTimeline.FirstUnknown | read_data.py:172 | no name is reported exactly when every activity name is a key of the dictionary; a reported name is not a key, and it belongs to an interval before which every name is a key |
| LabelTimeline.FrameToSample | read_data.py:174-175 | a frame maps to `frame * ratio` truncated toward zero, which is never negative for a non-negative frame and ratio |
| LabelTimeline.FrameToSampleMonotone | read_data.py:174-175 | later frames never map to earlier samples |
| LabelTimeline.PaintActivity | read_data.py:168-176 | painting keeps the array length |
| LabelTimeline.ActivityMarksWalking | read_data.py:167-176 | the activity array is 0/1, and 1 exactly on the samples some "walking" interval covers |
| LabelTimeline.Level | read_data.py:181 | a blank or "hided" cell gives -1; a cell fails exactly when it is neither of those nor an integer, and then with `NotAnInteger`; any other cell gives `int()` of it |
| LabelTimeline.LevelRoundTrip | read_data.py:181 | a cell holding a decimally written integer gives that integer as the level |
| LabelTimeline.Levels | read_data.py:181 | one level per severity row; the read fails exactly when some cell is neither blank, "hided" nor an integer, and then with `NotAnInteger` |
| LabelTimeline.LevelsFirstFailure | read_data.py:178-181 | a failing read reports the first bad severity cell in file order: that cell fails with exactly the reported error and every cell before it is a level |
| LabelTimeline.PaintSeverity | read_data.py:177-182 | painting keeps the array length |
| LabelTimeline.SeverityUncoveredKeepsBase | read_data.py:177-182 | a sample no severity row covers keeps its background value |
| LabelTimeline.SeverityLastWriterWins | read_data.py:177-182 | a covered sample holds the level of the last row covering it: later rows overwrite earlier ones |
| LabelTimeline.Rasterise | read_data.py:163-182 | both arrays have `round(last frame * ratio) + 1` samples; the step fails exactly when that length is negative, an activity name is not in the dictionary, or a severity cell is not a level; the checks come in source order: a negative length gives `NegativeLength`, otherwise the first unknown activity name is reported, otherwise the error of `Levels`, which `LevelsFirstFailure` shows is the first bad severity cell |
| LabelTimeline.ReadLabelData | read_data.py:120-184 | "no labels" exactly when the file parses and has no activity rows; a row-parsing failure is passed on; a parsed file with activity rows gives exactly the painted arrays of `Rasterise` at the ratio of target to source rate, with its failures and their order |
| LabelTimeline.ReadLabelDataPaints | read_data.py:163-182 | a read with labels is the two painting loops over the parsed sections |
| LabelTimeline.ReadLabelDataActivity | read_data.py:120-176 | each activity sample is 0/1, and 1 exactly where a "walking" row of section 3 lies |
| LabelTimeline.ReadLabelDataSeverityUnknown | read_data.py:177-182 | a sample no section-2 row covers has severity -1 |
| LabelTimeline.ReadLabelDataSeverityLevel | read_data.py:177-182 | a covered sample has the level of the last section-2 row covering it |
| Windowing.WindowStartIsProduct | preprocessing.py:162 | window `k` starts at `k * stride` |
| Windowing.WindowCount | preprocessing.py:162-166 | at least one window when the series is as long as the window |
| Windowing.WindowCountClosedForm | preprocessing.py:162-166 | the count is `(N - width) // stride + 1` |
| Windowing.WindowCountExact | preprocessing.py:162-164 | every counted window fits in the series and the next start would not |
| Windowing.WindowFits | preprocessing.py:162-164 | each counted window lies inside the series |
| Windowing.Window | preprocessing.py:163-164 | one window is the `width` samples from its start, in order |
| Windowing.Windows | preprocessing.py:163-164 | window `k` of a stream is the `width` samples from `k * stride` on, in order |
| Windowing.DataWindows | preprocessing.py:162 | sensor window `k` in channels-by-width layout: entry `[c][j]` is sample `k * stride + j`, channel `c` |
| Windowing.ModeAmong | preprocessing.py:173 | the candidate occurs in the prefix and beats every prefix entry by count, ties to the smaller value |
| Windowing.Mode | preprocessing.py:173 | the result is the unique most frequent value, the smallest among ties |
| Windowing.ValidCount | preprocessing.py:168 | the number of valid readings is at most the window length |
| Windowing.MaskedSum | preprocessing.py:169 | the masked sum is never negative |
| Windowing.MaskedCountsOfReadings | preprocessing.py:168-169 | the count is 0 exactly when no reading is valid and the full length exactly when all are; the masked sum is 0 with no valid reading and at least every valid reading |
| Windowing.ValidValues | preprocessing.py:168-169 | the valid readings are non-negative entries of the window |
| Windowing.MaskedSumsAreValidReadings | preprocessing.py:168-169 | the masked sums compute the count and the sum of the valid readings |
| Windowing.WindowSeverity | preprocessing.py:168-170 | the mean of the valid readings when they are a strict majority, else -1 |
| Windowing.SeverityWithinValidRange | preprocessing.py:168-170 | a majority severity lies between the smallest and largest valid reading, else it is -1 |
| Windowing.SeverityExample | preprocessing.py:168-170 | six valid readings summing to 9 in a window of 10 give 1.5 |
| Windowing.WindowLabels | preprocessing.py:173 | one label per label window, each the mode of its window |
| Windowing.WindowSeverities | preprocessing.py:168-170 | one severity per severity window, each that window's severity |
| Windowing.UpperLimit | preprocessing.py:157 | the end of the last whole stride: at most `N`, within one stride of it, and a window start |
| Windowing.UpperLimitPastOverlap | preprocessing.py:157-159 | with at least one window, the tail cut starts past the overlap, so it never wraps |
| Windowing.InclusionMask | preprocessing.py:153-159 | one entry per sample flagged 1, each 0 or 1, and 1 exactly before `upper - overlap`, including the wrapped case |
| Windowing.DataWindowing | preprocessing.py:130-179 | the failure cases and which error each raises: a stream shorter than the window gives `WindowLongerThanSeries`; otherwise a window of fewer than two samples, or a label or severity stream with fewer than two windows, gives `DegenerateShape`; otherwise a sensor stream without three channels gives `NotThreeChannels`; each output's window count is that of its own stream, and the returned count is the label stream's; the window contents, the mode and severity of every window, and the inclusion mask |
| Windowing.DataWindowingEqualStreams | preprocessing.py:162-165 | streams of one length, as the docstring asks, give every output the same number of windows |
| Windowing.DataWindowingShortSensorStream | preprocessing.py:162-165 | a sensor stream one stride shorter than the label streams yields one sensor window fewer than the count returned |
| Windowing.WindowingExample | preprocessing.py:162-166 | width 200, overlap 50, 700 samples: four windows at 0, 150, 300, 450 |
| Windowing.WindowCountIsNotSeriesOverStride | preprocessing.py:162-166 | with 600 samples there are 3 windows, while `600 // 150` is 4 |
| Windowing.UpperLimitExample | preprocessing.py:155-157 | a stride of 100 over 607 samples gives 600 |
| Windowing.ModeExamples | preprocessing.py:173 | -9 wins when most frequent, and a tie goes to the smaller code |
| MovingStd.LowerChar | preprocessing.py:48 | upper-case ASCII letters map to lower case; the Kelvin sign maps to `k`; other characters stay |
| MovingStd.Lower | preprocessing.py:48 | lower-casing keeps the length and maps each character |
| MovingStd.ParseMode | preprocessing.py:47-50 | a flag names a mode exactly when its lower-cased form is one of the three names |
| MovingStd.ParseModeOfName | preprocessing.py:47-51 | a flag that lower-cases to a mode's name selects that mode |
| MovingStd.ValidateMovingStd | preprocessing.py:47-61 | success exactly under the three checks, with the parsed mode and size; `BadMode` and `BadWindowSize` exactly in their cases, in the code's order |
| MovingStd.ValidatedWindowIsUsable | preprocessing.py:54-61 | an accepted call spans at least two points, and a one-sided window fits in the series |
| MovingStd.ExactMatchRejectsPrefix | preprocessing.py:38-50 | "c", "f" and "b" are rejected although documented as valid; "Central" is accepted |
| MovingStd.ParseModePrefix | preprocessing.py:38-39 | the documented reading: a non-empty flag whose lower-cased form begins a mode name |
| MovingStd.PrefixesSelectMode | preprocessing.py:38-39 | every non-empty prefix of a mode's name, in any case, selects that mode |
| MovingStd.PrefixReadingExtendsExact | preprocessing.py:38-50 | the prefix reading agrees with the code on every flag the code accepts |
| MovingStd.ValidateMovingStdCorrected | preprocessing.py:38-61 | the checks with the documented prefix reading of the mode flag: a flag that is no prefix of a mode name gives `BadMode`; a valid flag with a non-integer or non-positive size gives `BadWindowSize`; otherwise the call succeeds exactly when `1 <= size <= n` and, for a mode other than central, `size >= 2`, and returns the selected mode and size |
| MovingStd.CorrectedAcceptsMore | preprocessing.py:38-61 | the correction accepts every call the code accepts, with the same result |
| MovingStd.OneLetterFlagAccepted | preprocessing.py:38-50 | "c" with size 3 over 10 samples is accepted by the correction and rejected by the code |

## Left out

- File and folder discovery, CSV and Excel reading, `os.walk`, `print` and the debugger hook (`ipdb`) are I/O. The timeline is given as rows already split into cells, and the synchronisation anchors and the sample rate are parameters.
- `bandpass_filter`, `resample` and `tensor_data_loader` (preprocessing.py) are outside the modelled core; they rely on scipy, torch and floating-point filtering.
- The numeric body of `movingstd` (preprocessing.py:63-90) is left out: square roots, convolution and float normalisation.
- Floating point is modelled as exact reals. Rounding error in `rate * seconds` or in `frame * ratio` can move a truncation by one sample in Python; that is not modelled.
- Sync.SyncData: requires a positive sample rate. The code divides by it, and a zero rate gives numpy infinities that the model cannot represent.
- LabelTimeline.ReadLabelData: requires a positive source rate for the same reason.
- LabelTimeline.ParseInt: reads ASCII whitespace, an optional sign and ASCII digits. Python's `int()` also accepts `_` separators, Unicode digits and further whitespace (U+001C to U+001F, U+0085, U+00A0 and the other Unicode spaces); these are not modelled.
- LabelTimeline.Rasterise: requires at least one activity interval. The code returns "no labels" before it reaches this step, so `ReadLabelData` covers the empty case.
- LabelTimeline.PaintActivity: its own contract states only the length. Its per-sample meaning is stated by `ActivityMarksWalking`, and `PaintSeverity`'s by `SeverityLastWriterWins`.
- Windowing.DataWindowing: requires `overlap < width`. An equal overlap divides by zero and a larger one walks the windows backwards; neither is modelled. It also requires a rectangular sensor matrix, since a 2-D numpy array is one. Streams of different lengths are modelled.
- Windowing.DataWindowing: the shape of `scipy.stats.mode`'s result differs between scipy versions (`keepdims`); the model returns one label per window.
- Windowing.WindowLabels: requires a window of at least one sample; `DataWindowing` calls it only after its width check.
- Windowing.DataWindowing: the output concatenation onto empty accumulators is modelled only as the three-channel requirement it imposes.
- LabelTimeline.Level: severity levels are unbounded integers. Python stores them in an int64 array, and `chorea_labels[start:end] = level` raises `OverflowError` for a level outside the int64 range; that error is not modelled.
- Windowing.MaskedSum: the sum of a window's valid readings is an unbounded integer. `np.sum` over int64 wraps silently on overflow; the wrap is not modelled.
- MovingStd.LowerChar: maps A-Z and the Kelvin sign. Other characters are kept as they are, which is exact for deciding whether a flag equals one of the three names but is not full Unicode lower-casing.
- MovingStd.ValidateMovingStd: `bool` values pass Python's `isinstance(x, int)`; a caller models them as `IntSize(0)` or `IntSize(1)`.
- MovingStd.ValidateMovingStd: the central-mode check at preprocessing.py:58-59 is covered by the general check at line 55 and can never raise, so it is not a separate branch.

## Findings

| source | as written | input that shows it | evidently intended | confidence | as-written member | corrected member |
|---|---|---|---|---|---|---|
| preprocessing.py:38-50 | the lower-cased flag must equal `central`, `forward` or `backward` exactly | `windowmode="c"` raises `ValueError` | any non-empty prefix such as `c`, `f` or `b` selects its mode, as documented | medium; not executed | MovingStd.ExactMatchRejectsPrefix | MovingStd.ValidateMovingStdCorrected |
| read_data.py:187-199 | only the sensor stream is cut to the label length | sensor `[0]`, labels `[1, 1]`, equal anchors: lengths 1 and 2 | all outputs of the same size, as documented | medium; not executed | Sync.SyncShortSensorCounterexample | Sync.SyncDataEqualLength |

=== FILE: label_timeline.dfy ===
/** The label side of read_data.py `read_label_data`: the already split rows
    of a timeline file are sorted into the severity section and the activity
    section, and those intervals (in video frames) are painted onto two
    per-sample integer arrays at the sensor rate. */
module LabelTimeline {
  import opened Wrappers
  import opened PyOps

  /** One CSV row, already split into cells. */
  type Row = seq<string>

  /** Columns 2, 3 and 4 of a timeline row: first frame, last frame, text. */
  datatype Interval = Interval(first: int, last: int, name: string)

  datatype Sections = Sections(severity: seq<Interval>, activity: seq<Interval>)

  datatype LabelError =
    | MissingColumn               // IndexError on row[2], row[3] or row[4]
    | NotAnInteger(text: string)  // ValueError from int()
    | UnknownActivity(name: string)  // the assertion on the activity dictionary
    | NegativeLength              // np.zeros/np.ones with a negative size

  /** `(None, None)` when the file has no activity rows, else the two arrays. */
  datatype LabelArrays = NoLabels | Labels(activity: seq<int>, severity: seq<int>)

  /** The activity-name dictionary of read_data.py. Only its keys matter to
      the model: a name outside them fails the assertion, and only
      "walking" is painted. */
  const ActivityCodes: map<string, int> := map[
    "walking" := 1, "turning" := -9, "turning " := -9, "stumbling" := -9,
    "stepping to the side" := 0, "standing" := 0, "sitting" := 0, "siting down" := 0,
    "standing clapping hands" := 0, "sitting down" := 0, "sitting clapping hands" := 0,
    "sit to stand" := 0, "sitting and writing " := 0, "sitting and driniking water" := 0,
    "sitting and writing" := 0, "standing up" := 0, "standing and clapping hands" := 0,
    "standing and putting arms crossed on the chest" := 0,
    "standing with arms crossed on the chest" := 0,
    "standing and putting the arms down" := 0, "standing and putting the hands down" := 0,
    "" := 0, "stepping on a foam" := 0,
    "standing and putting the arms crossed on the chest" := 0,
    "standing with arms crossed on the chesr" := 0, "standing and putting hands down" := 0,
    "stepping off the foam" := 0, "bending over" := 0, "sitting and clapping hands" := 0,
    "stepping up and down a step" := 0, "sitiing down" := 0, "moving hands up" := 0,
    "clapping hands" := 0, "moving hands down" := 0, "staidning up" := 0, "step ups" := -9,
    "stambling" := 0, "stepping over a step" := 0, "stending up" := 0, "stending" := 0,
    "stepping off of step" := 0, "standing off a step" := 0, "turning around" := 0,
    "putting the arms crossed on the chest\n" := 0, "walking backwards" := 0,
    "putting the arms crossed on the chest" := 0, "arms crossed on the chest\n" := 0,
    "-9" := -9]

  // ---------------------------------------------------------------------
  // int() on a text cell

  /** The ASCII whitespace `int()` strips around its argument. */
  predicate IsSpace(c: char) {
    c == ' ' || c == '\t' || c == '\n' || c == '\r' || c == '\U{000B}' || c == '\U{000C}'
  }

  predicate AllDigits(s: string) {
    forall i :: 0 <= i < |s| ==> '0' <= s[i] <= '9'
  }

  /** The number of whitespace characters `s` begins with. */
  function LeadingSpaces(s: string): (n: nat)
    ensures n <= |s|
    ensures forall i :: 0 <= i < n ==> IsSpace(s[i])
    ensures n == |s| || !IsSpace(s[n])
    decreases |s|
  {
    if |s| > 0 && IsSpace(s[0]) then
      var n := 1 + LeadingSpaces(s[1..]);
      assert forall i :: 0 <= i < n ==> IsSpace(s[i]) by {
        forall i | 0 <= i < n
          ensures IsSpace(s[i])
        {
          if i > 0 {
            assert s[i] == s[1..][i - 1];
          }
        }
      }
      assert n == |s| || s[n] == s[1..][n - 1];
      n
    else
      0
  }

  /** The number of whitespace characters `s` ends with. */
  function TrailingSpaces(s: string): (n: nat)
    ensures n <= |s|
    ensures forall i :: |s| - n <= i < |s| ==> IsSpace(s[i])
    ensures n == |s| || !IsSpace(s[|s| - n - 1])
    decreases |s|
  {
    if |s| > 0 && IsSpace(s[|s| - 1]) then
      var t := s[..|s| - 1];
      var n := 1 + TrailingSpaces(t);
      assert forall i :: |s| - n <= i < |s| ==> IsSpace(s[i]) by {
        forall i | |s| - n <= i < |s|
          ensures IsSpace(s[i])
        {
          if i < |t| {
            assert s[i] == t[i];
          }
        }
      }
      assert n == |s| || s[|s| - n - 1] == t[|t| - (n - 1) - 1];
      n
    else
      0
  }

  /** `str.lstrip()`: the suffix left after the leading whitespace. */
  function StripLeft(s: string): (r: string)
    ensures |r| <= |s| && r == s[|s| - |r|..]
    ensures forall i :: 0 <= i < |s| - |r| ==> IsSpace(s[i])
    ensures |r| == 0 || !IsSpace(r[0])
  {
    s[LeadingSpaces(s)..]
  }

  /** `str.rstrip()`: the prefix left before the trailing whitespace. */
  function StripRight(s: string): (r: string)
    ensures |r| <= |s| && r == s[..|r|]
    ensures forall i :: |r| <= i < |s| ==> IsSpace(s[i])
    ensures |r| == 0 || !IsSpace(r[|r| - 1])
  {
    s[..|s| - TrailingSpaces(s)]
  }

  /** Decimal value of a digit string, most significant digit first. */
  function DigitsValue(s: string): nat
    requires AllDigits(s)
    decreases |s|
  {
    if |s| == 0 then 0
    else DigitsValue(s[..|s| - 1]) * 10 + (s[|s| - 1] as int - '0' as int)
  }

  /** What `int()` reads of a cell lies inside it: the characters after the
      leading whitespace, and nothing at all when the cell is blank. */
  lemma StrippedLiesInside(text: string)
    ensures var l := StripLeft(text);
      var t := StripRight(l);
      |l| <= |text| && |t| <= |l| && forall i :: 0 <= i < |t| ==> t[i] == text[|text| - |l| + i]
    ensures (forall i :: 0 <= i < |text| ==> IsSpace(text[i])) ==> StripRight(StripLeft(text)) == ""
  {
    var l := StripLeft(text);
    var t := StripRight(l);
    assert forall i :: 0 <= i < |t| ==> t[i] == l[i] == text[|text| - |l| + i];
    if |l| > 0 {
      assert l[0] == text[|text| - |l|];
    }
  }

  /** `int()` on text already stripped of its surrounding whitespace. */
  function ParseStripped(t: string): (r: Option<int>)
    ensures |t| == 0 ==> r.None?
    ensures |t| > 0 && AllDigits(t) ==> r == Some(DigitsValue(t))
    ensures r.Some? ==> |t| > 0 && ('0' <= t[0] <= '9' || (|t| > 1 && '0' <= t[1] <= '9'))
    ensures r.Some? && r.value < 0 ==> t[0] == '-'
  {
    if |t| > 0 && (t[0] == '-' || t[0] == '+') then
      var digits := t[1..];
      if |digits| > 0 && AllDigits(digits) then
        var v: int := DigitsValue(digits);
        Some(if t[0] == '-' then -v else v)
      else None
    else if |t| > 0 && AllDigits(t) then Some(DigitsValue(t))
    else None
  }

  /** `int(text)`: surrounding whitespace, an optional sign, then at least
      one decimal digit; `None` where Python raises ValueError. */
  function ParseInt(text: string): (r: Option<int>)
    ensures (forall i :: 0 <= i < |text| ==> IsSpace(text[i])) ==> r.None?
    ensures |text| > 0 && AllDigits(text) ==> r == Some(DigitsValue(text))
    ensures r.Some? ==> exists i :: 0 <= i < |text| && '0' <= text[i] <= '9'
    ensures r.Some? && r.value < 0 ==> exists i :: 0 <= i < |text| && text[i] == '-'
  {
    BlankCellIsNotInteger(text);
    DigitCellReadsAsDigits(text);
    IntegerCellHasDigit(text);
    NegativeCellHasMinus(text);
    ParseStripped(StripRight(StripLeft(text)))
  }

  lemma BlankCellIsNotInteger(text: string)
    ensures (forall i :: 0 <= i < |text| ==> IsSpace(text[i])) ==> ParseStripped(StripRight(StripLeft(text))).None?
  {
    StrippedLiesInside(text);
  }

  lemma DigitCellReadsAsDigits(text: string)
    ensures |text| > 0 && AllDigits(text) ==> ParseStripped(StripRight(StripLeft(text))) == Some(DigitsValue(text))
  {
    if |text| > 0 && AllDigits(text) {
      assert !IsSpace(text[0]) && !IsSpace(text[|text| - 1]);
      assert StripLeft(text) == text;
      assert StripRight(text) == text;
    }
  }

  lemma IntegerCellHasDigit(text: string)
    ensures var r := ParseStripped(StripRight(StripLeft(text)));
      r.Some? ==> exists i :: 0 <= i < |text| && '0' <= text[i] <= '9'
  {
    var l := StripLeft(text);
    var t := StripRight(l);
    StrippedLiesInside(text);
    var a := |text| - |l|;
    if ParseStripped(t).Some? {
      if '0' <= t[0] <= '9' {
        assert text[a] == t[0];
      } else {
        assert text[a + 1] == t[1];
      }
    }
  }

  lemma NegativeCellHasMinus(text: string)
    ensures var r := ParseStripped(StripRight(StripLeft(text)));
      r.Some? && r.value < 0 ==> exists i :: 0 <= i < |text| && text[i] == '-'
  {
    var l := StripLeft(text);
    var t := StripRight(l);
    var r := ParseStripped(t);
    StrippedLiesInside(text);
    if r.Some? && r.value < 0 {
      assert text[|text| - |l|] == t[0];
    }
  }

  /** The grammar `int()` accepts, stated on the cell with its surrounding
      whitespace removed: digits, optionally after one sign. Anything else
      (`"12a"`, `"-"`, `"1 2"`) is rejected. */
  lemma ParseIntGrammar(text: string)
    ensures var t := StripRight(StripLeft(text));
      ParseInt(text).Some? <==>
        |t| > 0 && (AllDigits(t) || (|t| > 1 && (t[0] == '+' || t[0] == '-') && AllDigits(t[1..])))
    ensures var t := StripRight(StripLeft(text));
      |t| > 0 && AllDigits(t) ==> ParseInt(text) == Some(DigitsValue(t))
    ensures var t := StripRight(StripLeft(text));
      |t| > 1 && t[0] == '-' && AllDigits(t[1..]) ==> ParseInt(text) == Some(-(DigitsValue(t[1..]) as int))
    ensures var t := StripRight(StripLeft(text));
      |t| > 1 && t[0] == '+' && AllDigits(t[1..]) ==> ParseInt(text) == Some(DigitsValue(t[1..]))
  {
    var t := StripRight(StripLeft(text));
    assert ParseInt(text) == ParseStripped(t);
  }

  /** Whitespace around a cell that has none at its ends is exactly what
      stripping removes. */
  lemma StripPadding(pre: string, x: string, post: string)
    requires forall i :: 0 <= i < |pre| ==> IsSpace(pre[i])
    requires forall i :: 0 <= i < |post| ==> IsSpace(post[i])
    requires |x| > 0 && !IsSpace(x[0]) && !IsSpace(x[|x| - 1])
    ensures StripRight(StripLeft(pre + x + post)) == x
  {
    var s := pre + x + post;
    var l := StripLeft(s);
    assert forall i :: 0 <= i < |pre| ==> s[i] == pre[i];
    assert s[|pre|] == x[0];
    assert l == x + post;
    var t := StripRight(l);
    assert forall i :: |x| <= i < |l| ==> l[i] == post[i - |x|];
    assert l[|x| - 1] == x[|x| - 1];
    assert t == x;
  }

  /** A number written out, with or without a leading `+`, is what `int()` reads back. */
  lemma ParseStrippedShowInt(n: int)
    ensures ParseStripped(ShowInt(n)) == Some(n)
    ensures n >= 0 ==> ParseStripped("+" + ShowInt(n)) == Some(n)
  {
    var m: nat := if n < 0 then -n else n;
    DigitsValueOfShowNat(m);
    var digits := ShowNat(m);
    if n < 0 {
      assert ShowInt(n)[1..] == digits;
    } else {
      assert ("+" + digits)[1..] == digits;
    }
  }

  /** A written-out number never starts or ends with whitespace. */
  lemma ShowIntHasNoPadding(n: int)
    ensures var x := ShowInt(n); |x| > 0 && !IsSpace(x[0]) && !IsSpace(x[|x| - 1])
    ensures var y := "+" + ShowInt(n); !IsSpace(y[0]) && !IsSpace(y[|y| - 1])
  {
    var digits := ShowNat(if n < 0 then -n else n);
    assert ShowInt(n)[|ShowInt(n)| - 1] == digits[|digits| - 1];
  }

  /** `int()` ignores whitespace around a number and accepts a leading `+`. */
  lemma ParseIntPadded(pre: string, n: int, post: string)
    requires forall i :: 0 <= i < |pre| ==> IsSpace(pre[i])
    requires forall i :: 0 <= i < |post| ==> IsSpace(post[i])
    ensures ParseInt(pre + ShowInt(n) + post) == Some(n)
    ensures n >= 0 ==> ParseInt(pre + ("+" + ShowInt(n)) + post) == Some(n)
  {
    ShowIntHasNoPadding(n);
    ParseStrippedShowInt(n);
    ParsePaddedCell(pre, ShowInt(n), post);
    ParsePaddedCell(pre, "+" + ShowInt(n), post);
  }

  lemma ParsePaddedCell(pre: string, x: string, post: string)
    requires forall i :: 0 <= i < |pre| ==> IsSpace(pre[i])
    requires forall i :: 0 <= i < |post| ==> IsSpace(post[i])
    requires |x| > 0 && !IsSpace(x[0]) && !IsSpace(x[|x| - 1])
    ensures ParseInt(pre + x + post) == ParseStripped(x)
  {
    var cell := pre + x + post;
    StripPadding(pre, x, post);
    assert ParseInt(cell) == ParseStripped(StripRight(StripLeft(cell)));
  }

  /** Decimal rendering of a natural number, the inverse partner of `ParseInt`. */
  function ShowNat(n: nat): (s: string)
    ensures |s| > 0 && AllDigits(s)
  {
    var d := ['0' + (n % 10) as char];
    if n < 10 then d else ShowNat(n / 10) + d
  }

  function ShowInt(n: int): string {
    if n < 0 then "-" + ShowNat(-n) else ShowNat(n)
  }

  lemma {:induction false} DigitsValueOfShowNat(n: nat)
    ensures DigitsValue(ShowNat(n)) == n
  {
    var s := ShowNat(n);
    if n >= 10 {
      DigitsValueOfShowNat(n / 10);
      assert s[..|s| - 1] == ShowNat(n / 10);
    }
  }

  /** Every integer written in decimal reads back as itself. */
  lemma ParseIntRoundTrip(n: int)
    ensures ParseInt(ShowInt(n)) == Some(n)
  {
    var s := ShowInt(n);
    var p := ShowNat(if n < 0 then -n else n);
    DigitsValueOfShowNat(if n < 0 then -n else n);
    assert !IsSpace(s[0]) && !IsSpace(s[|s| - 1]);
    assert StripRight(StripLeft(s)) == s;
    if n < 0 {
      assert s[1..] == p;
    }
  }

  // ---------------------------------------------------------------------
  // The row-section state machine

  /** A section marker: a row whose first cell is "T". */
  predicate IsMarker(row: Row) {
    |row| > 0 && row[0] == "T"
  }

  /** Columns 2 to 4 of a row, in the order Python evaluates them. */
  function ParseInterval(row: Row): (r: Result<Interval, LabelError>)
    ensures r.Success? <==> |row| >= 5 && ParseInt(row[2]).Some? && ParseInt(row[3]).Some?
    ensures r.Success? ==> r.value == Interval(ParseInt(row[2]).value, ParseInt(row[3]).value, row[4])
    ensures |row| >= 3 && ParseInt(row[2]).None? ==> r == Failure(NotAnInteger(row[2]))
    ensures |row| < 3 ==> r == Failure(MissingColumn)
    ensures |row| >= 4 && ParseInt(row[2]).Some? && ParseInt(row[3]).None? ==> r == Failure(NotAnInteger(row[3]))
    ensures |row| >= 3 && ParseInt(row[2]).Some? && (|row| == 3 || (|row| == 4 && ParseInt(row[3]).Some?)) ==>
      r == Failure(MissingColumn)
    ensures r.Failure? ==> r.error == MissingColumn || r.error == NotAnInteger(row[2]) || (|row| >= 4 && r.error == NotAnInteger(row[3]))
  {
    if |row| < 3 then Failure(MissingColumn)
    else match ParseInt(row[2])
      case None => Failure(NotAnInteger(row[2]))
      case Some(first) =>
        if |row| < 4 then Failure(MissingColumn)
        else match ParseInt(row[3])
          case None => Failure(NotAnInteger(row[3]))
          case Some(last) =>
            if |row| < 5 then Failure(MissingColumn)
            else Success(Interval(first, last, row[4]))
  }

  /** The row loop of `read_label_data` with `markers` markers already seen:
      empty rows are skipped, the first three markers advance the section,
      rows of section 2 become severity intervals, rows of section 3 become
      activity intervals, and a fourth marker ends the loop. */
  function Scan(rows: seq<Row>, markers: nat): (r: Result<Sections, LabelError>)
    requires markers <= 3
    ensures r.Failure? ==> r.error.MissingColumn? || r.error.NotAnInteger?
    ensures r.Success? && markers == 3 ==> r.value.severity == []
    decreases |rows|
  {
    if |rows| == 0 then Success(Sections([], []))
    else
      var row := rows[0];
      if |row| == 0 then Scan(rows[1..], markers)
      else if markers < 3 && row[0] == "T" then Scan(rows[1..], markers + 1)
      else if markers == 2 then
        var iv :- ParseInterval(row);
        var rest :- Scan(rows[1..], markers);
        Success(Sections([iv] + rest.severity, rest.activity))
      else if markers == 3 then
        if row[0] == "T" then Success(Sections([], []))
        else
          var iv :- ParseInterval(row);
          var rest :- Scan(rows[1..], markers);
          Success(Sections(rest.severity, [iv] + rest.activity))
      else Scan(rows[1..], markers)
  }

  /** Reference definition of a section: the non-empty, non-marker rows
      that follow exactly `section` markers and precede the fourth one. */
  function SectionRows(rows: seq<Row>, markers: nat, section: nat): (r: seq<Row>)
    ensures forall i :: 0 <= i < |r| ==> |r[i]| > 0 && !IsMarker(r[i])
    decreases |rows|
  {
    if |rows| == 0 then []
    else if IsMarker(rows[0]) && markers >= 3 then []
    else if IsMarker(rows[0]) then SectionRows(rows[1..], markers + 1, section)
    else
      var here := if |rows[0]| > 0 && markers == section then [rows[0]] else [];
      here + SectionRows(rows[1..], markers, section)
  }

  /** Parses rows in order; the first row that fails decides the error. */
  function ParseAll(rows: seq<Row>): (r: Result<seq<Interval>, LabelError>)
    ensures r.Success? ==> |r.value| == |rows|
    ensures r.Success? ==> forall i :: 0 <= i < |rows| ==> ParseInterval(rows[i]) == Success(r.value[i])
    ensures r.Failure? <==> exists i :: 0 <= i < |rows| && ParseInterval(rows[i]).Failure?
    decreases |rows|
  {
    if |rows| == 0 then Success([])
    else
      var iv :- ParseInterval(rows[0]);
      ParseAllShift(rows);
      var rest :- ParseAll(rows[1..]);
      ParseAllShiftValues(rows, iv, rest);
      Success([iv] + rest)
  }

  /** A list of results whose first entry succeeds with `x` and whose other
      entries succeed with `rest` succeeds entry by entry with `[x] + rest`. */
  lemma SuccessesLineUp<T>(results: seq<Result<T, LabelError>>, x: T, rest: seq<T>)
    requires |results| > 0 && results[0] == Success(x) && |rest| == |results| - 1
    ensures (forall j :: 0 <= j < |rest| ==> results[1..][j] == Success(rest[j])) ==>
      forall j :: 0 <= j < |results| ==> results[j] == Success(([x] + rest)[j])
  {
    if forall j :: 0 <= j < |rest| ==> results[1..][j] == Success(rest[j]) {
      forall j | 0 <= j < |results|
        ensures results[j] == Success(([x] + rest)[j])
      {
        if j > 0 {
          assert results[j] == results[1..][j - 1];
        }
      }
    }
  }

  /** A failing row after the first is a failing row of the whole list. */
  lemma ParseAllShift(rows: seq<Row>)
    requires |rows| > 0
    ensures (exists i :: 0 <= i < |rows| - 1 && ParseInterval(rows[1..][i]).Failure?) ==>
      exists i :: 0 <= i < |rows| && ParseInterval(rows[i]).Failure?
  {
    if exists i :: 0 <= i < |rows| - 1 && ParseInterval(rows[1..][i]).Failure? {
      var i :| 0 <= i < |rows| - 1 && ParseInterval(rows[1..][i]).Failure?;
      assert rows[i + 1] == rows[1..][i];
    }
  }

  /** The intervals of the first row and of the rest line up with all rows. */
  lemma ParseAllShiftValues(rows: seq<Row>, iv: Interval, rest: seq<Interval>)
    requires |rows| > 0 && ParseInterval(rows[0]) == Success(iv) && |rest| == |rows| - 1
    ensures (forall i :: 0 <= i < |rest| ==> ParseInterval(rows[1..][i]) == Success(rest[i])) ==>
      forall i :: 0 <= i < |rows| ==> ParseInterval(rows[i]) == Success(([iv] + rest)[i])
  {
    if forall i :: 0 <= i < |rest| ==> ParseInterval(rows[1..][i]) == Success(rest[i]) {
      forall i | 0 <= i < |rows|
        ensures ParseInterval(rows[i]) == Success(([iv] + rest)[i])
      {
        if i > 0 {
          assert rows[i] == rows[1..][i - 1] && ([iv] + rest)[i] == rest[i - 1];
        }
      }
    }
  }

  /** The error `ParseAll` reports is that of the first row that fails: every row before it parses. */
  lemma {:induction false} ParseAllFirstFailure(rows: seq<Row>)
    ensures ParseAll(rows).Failure? ==>
      exists i :: 0 <= i < |rows| && ParseInterval(rows[i]) == Failure(ParseAll(rows).error)
        && (forall j :: 0 <= j < i ==> ParseInterval(rows[j]).Success?)
    decreases |rows|
  {
    if |rows| > 0 {
      var tail := rows[1..];
      if ParseInterval(rows[0]).Success? && ParseAll(tail).Failure? {
        ParseAllFirstFailure(tail);
        var i :| 0 <= i < |tail| && ParseInterval(tail[i]) == Failure(ParseAll(tail).error)
          && (forall j :: 0 <= j < i ==> ParseInterval(tail[j]).Success?);
        assert rows[i + 1] == tail[i];
        forall j | 0 <= j < i + 1
          ensures ParseInterval(rows[j]).Success?
        {
          if j > 0 {
            assert rows[j] == tail[j - 1];
          }
        }
      }
    }
  }

  function BothSections(sev: Result<seq<Interval>, LabelError>, act: Result<seq<Interval>, LabelError>): Result<Sections, LabelError> {
    var s :- sev;
    var a :- act;
    Success(Sections(s, a))
  }

  /** Once past a section's markers, no later row belongs to it. */
  lemma {:induction false} SectionRowsAfterSection(rows: seq<Row>, markers: nat, section: nat)
    requires section < markers
    ensures SectionRows(rows, markers, section) == []
    decreases |rows|
  {
    if |rows| > 0 {
      if IsMarker(rows[0]) && markers < 3 {
        SectionRowsAfterSection(rows[1..], markers + 1, section);
      } else if !IsMarker(rows[0]) {
        SectionRowsAfterSection(rows[1..], markers, section);
      }
    }
  }

  /** The single-pass state machine agrees with the per-section reference:
      the severity list is section 2 parsed, the activity list is section 3
      parsed, and a malformed row in either fails the whole read, severity
      rows first. */
  lemma {:induction false} ScanMatchesSectionRows(rows: seq<Row>, markers: nat)
    requires markers <= 3
    ensures Scan(rows, markers)
      == BothSections(ParseAll(SectionRows(rows, markers, 2)), ParseAll(SectionRows(rows, markers, 3)))
    decreases |rows|
  {
    if |rows| > 0 {
      var row := rows[0];
      var rest := rows[1..];
      if |row| == 0 {
        ScanMatchesSectionRows(rest, markers);
        assert SectionRows(rows, markers, 2) == SectionRows(rest, markers, 2);
        assert SectionRows(rows, markers, 3) == SectionRows(rest, markers, 3);
      } else if markers < 3 && row[0] == "T" {
        ScanMatchesSectionRows(rest, markers + 1);
      } else if markers == 3 && row[0] == "T" {
      } else {
        ScanMatchesSectionRows(rest, markers);
        if markers == 2 {
          SeverityRowStep(rows);
        } else if markers == 3 {
          ActivityRowStep(rows);
        } else {
          assert SectionRows(rows, markers, 2) == SectionRows(rest, markers, 2);
          assert SectionRows(rows, markers, 3) == SectionRows(rest, markers, 3);
        }
      }
    }
  }

  /** `ParseAll` reads the first row, then the rest. */
  lemma ParseAllCons(row: Row, rest: seq<Row>)
    ensures ParseAll([row] + rest) ==
      match ParseInterval(row)
      case Failure(e) => Failure(e)
      case Success(iv) => (match ParseAll(rest)
        case Failure(e) => Failure(e)
        case Success(ivs) => Success([iv] + ivs))
  {
    assert ([row] + rest)[0] == row && ([row] + rest)[1..] == rest;
  }

  /** One step of `ScanMatchesSectionRows` on a data row of section 2: if
      the rest of the rows agree with the per-section definition, so do
      all of them. */
  lemma SeverityRowStep(rows: seq<Row>)
    requires |rows| > 0 && |rows[0]| > 0 && rows[0][0] != "T"
    ensures (Scan(rows[1..], 2)
               == BothSections(ParseAll(SectionRows(rows[1..], 2, 2)), ParseAll(SectionRows(rows[1..], 2, 3))))
      ==> (Scan(rows, 2)
           == BothSections(ParseAll(SectionRows(rows, 2, 2)), ParseAll(SectionRows(rows, 2, 3))))
  {
    var rest := rows[1..];
    var here := [rows[0]] + SectionRows(rest, 2, 2);
    assert !IsMarker(rows[0]);
    assert SectionRows(rows, 2, 2) == here;
    assert SectionRows(rows, 2, 3) == SectionRows(rest, 2, 3);
    ParseAllCons(rows[0], SectionRows(rest, 2, 2));
  }

  /** One step of `ScanMatchesSectionRows` on a data row of section 3, in
      the same form. */
  lemma ActivityRowStep(rows: seq<Row>)
    requires |rows| > 0 && |rows[0]| > 0 && rows[0][0] != "T"
    ensures (Scan(rows[1..], 3)
               == BothSections(ParseAll(SectionRows(rows[1..], 3, 2)), ParseAll(SectionRows(rows[1..], 3, 3))))
      ==> (Scan(rows, 3)
           == BothSections(ParseAll(SectionRows(rows, 3, 2)), ParseAll(SectionRows(rows, 3, 3))))
  {
    var rest := rows[1..];
    var here := [rows[0]] + SectionRows(rest, 3, 3);
    assert !IsMarker(rows[0]);
    SectionRowsAfterSection(rows, 3, 2);
    SectionRowsAfterSection(rest, 3, 2);
    assert SectionRows(rows, 3, 3) == here;
    ParseAllCons(rows[0], SectionRows(rest, 3, 3));
    ScanActivityCons(rows);
  }

  /** After the third marker, `Scan` reads a data row, then the rest. */
  lemma ScanActivityCons(rows: seq<Row>)
    requires |rows| > 0 && |rows[0]| > 0 && rows[0][0] != "T"
    ensures Scan(rows, 3) ==
      match ParseInterval(rows[0])
      case Failure(e) => Failure(e)
      case Success(iv) => (match Scan(rows[1..], 3)
        case Failure(e) => Failure(e)
        case Success(sec) => Success(Sections(sec.severity, [iv] + sec.activity)))
  {
  }

  /** Rows before the second marker are never read: whatever they hold,
      malformed or not, the outcome is that of the rows after them. */
  lemma {:induction false} RowsBeforeSecondMarkerIgnored(junk: seq<Row>, rest: seq<Row>, markers: nat)
    requires markers < 2
    requires forall i :: 0 <= i < |junk| ==> !IsMarker(junk[i])
    ensures Scan(junk + rest, markers) == Scan(rest, markers)
    decreases |junk|
  {
    if |junk| > 0 {
      var rows := junk + rest;
      assert rows[0] == junk[0];
      assert rows[1..] == junk[1..] + rest;
      assert Scan(rows, markers) == Scan(rows[1..], markers);
      RowsBeforeSecondMarkerIgnored(junk[1..], rest, markers);
    } else {
      assert junk + rest == rest;
    }
  }

  /** Nothing after the fourth marker is read. */
  lemma {:induction false} NothingReadAfterFourthMarker(body: seq<Row>, marker: Row, tail: seq<Row>)
    requires IsMarker(marker)
    requires forall i :: 0 <= i < |body| ==> !IsMarker(body[i])
    ensures Scan(body + [marker] + tail, 3) == Scan(body, 3)
    decreases |body|
  {
    if |body| > 0 {
      assert (body + [marker] + tail)[1..] == body[1..] + [marker] + tail;
      NothingReadAfterFourthMarker(body[1..], marker, tail);
    } else {
      assert (body + [marker] + tail)[0] == marker;
    }
  }

  // ---------------------------------------------------------------------
  // Rasterisation

  /** `int(np.round(frame) * ratio)`: rounding an integer frame changes
      nothing, so this is the truncation of `frame * ratio`. */
  function FrameToSample(frame: int, ratio: real): (k: int)
    ensures 0.0 <= frame as real * ratio ==> k as real <= frame as real * ratio < k as real + 1.0
    ensures frame as real * ratio < 0.0 ==> k as real - 1.0 < frame as real * ratio <= k as real
    ensures frame >= 0 && ratio >= 0.0 ==> k >= 0
  {
    Trunc(frame as real * ratio)
  }

  /** Later frames never map to earlier samples. */
  lemma FrameToSampleMonotone(f1: int, f2: int, ratio: real)
    requires ratio >= 0.0
    ensures f1 <= f2 ==> FrameToSample(f1, ratio) <= FrameToSample(f2, ratio)
  {
    if f1 <= f2 {
      MulMonotone(f1 as real, f2 as real, ratio);
      TruncMonotone(f1 as real * ratio, f2 as real * ratio);
    }
  }

  lemma MulMonotone(a: real, b: real, c: real)
    requires a <= b && c >= 0.0
    ensures a * c <= b * c
  {
    assert b * c - a * c == (b - a) * c;
  }

  /** Sample `k` of an `n`-sample array lies in the slice an interval paints. */
  predicate SpanCovers(iv: Interval, ratio: real, k: int, n: nat) {
    SliceIndex(FrameToSample(iv.first, ratio), n) <= k < SliceIndex(FrameToSample(iv.last, ratio), n)
  }

  function Fill(n: nat, v: int): (r: seq<int>)
    ensures |r| == n && forall k :: 0 <= k < n ==> r[k] == v
  {
    seq(n, _ => v)
  }

  /** The first activity name the dictionary does not know, if any. */
  function FirstUnknown(ivs: seq<Interval>): (r: Option<string>)
    ensures r.None? <==> forall j :: 0 <= j < |ivs| ==> ivs[j].name in ActivityCodes
    ensures r.Some? ==> r.value !in ActivityCodes
    ensures r.Some? ==>
      exists j :: 0 <= j < |ivs| && ivs[j].name == r.value && (forall i :: 0 <= i < j ==> ivs[i].name in ActivityCodes)
    decreases |ivs|
  {
    if |ivs| == 0 then None
    else if ivs[0].name !in ActivityCodes then Some(ivs[0].name)
    else FirstUnknown(ivs[1..])
  }

  /** The activity loop: intervals in file order, each "walking" one sets its
      slice to 1. */
  function PaintActivity(base: seq<int>, ivs: seq<Interval>, ratio: real): (r: seq<int>)
    ensures |r| == |base|
    decreases |ivs|
  {
    if |ivs| == 0 then base
    else
      var prev := PaintActivity(base, ivs[..|ivs| - 1], ratio);
      var iv := ivs[|ivs| - 1];
      if iv.name == "walking" then
        AssignSlice(prev, FrameToSample(iv.first, ratio), FrameToSample(iv.last, ratio), 1)
      else prev
  }

  /** On a zero background the activity array is 0/1, and 1 exactly on the
      samples some "walking" interval covers. */
  lemma {:induction false} ActivityMarksWalking(n: nat, ivs: seq<Interval>, ratio: real, k: int)
    requires 0 <= k < n
    ensures var a := PaintActivity(Fill(n, 0), ivs, ratio);
      && (a[k] == 0 || a[k] == 1)
      && (a[k] == 1 <==> exists j :: 0 <= j < |ivs| && ivs[j].name == "walking" && SpanCovers(ivs[j], ratio, k, n))
    decreases |ivs|
  {
    if |ivs| > 0 {
      var init := ivs[..|ivs| - 1];
      ActivityMarksWalking(n, init, ratio, k);
      var a := PaintActivity(Fill(n, 0), ivs, ratio);
      var prev := PaintActivity(Fill(n, 0), init, ratio);
      var last := |ivs| - 1;
      if prev[k] == 1 {
        var j :| 0 <= j < |init| && init[j].name == "walking" && SpanCovers(init[j], ratio, k, n);
        assert ivs[j] == init[j];
      }
      if a[k] == 1 && !(ivs[last].name == "walking" && SpanCovers(ivs[last], ratio, k, n)) {
        assert prev[k] == 1;
      }
      if exists j :: 0 <= j < |ivs| && ivs[j].name == "walking" && SpanCovers(ivs[j], ratio, k, n) {
        var j :| 0 <= j < |ivs| && ivs[j].name == "walking" && SpanCovers(ivs[j], ratio, k, n);
        if j < last {
          assert init[j] == ivs[j];
        }
      }
    }
  }

  /** The severity level of a row: -1 for a blank or "hided" cell, else `int()`
      of the cell. */
  function Level(iv: Interval): (r: Result<int, LabelError>)
    ensures iv.name == "" || iv.name == "hided" ==> r == Success(-1)
    ensures r.Failure? <==> iv.name != "" && iv.name != "hided" && ParseInt(iv.name).None?
    ensures r.Failure? ==> r == Failure(NotAnInteger(iv.name))
    ensures r.Success? && iv.name != "" && iv.name != "hided" ==> ParseInt(iv.name) == Some(r.value)
  {
    if iv.name == "" || iv.name == "hided" then Success(-1)
    else match ParseInt(iv.name)
      case None => Failure(NotAnInteger(iv.name))
      case Some(v) => Success(v)
  }

  /** A severity cell holding a decimally written integer sets that level:
      such a cell is never blank nor "hided". */
  lemma LevelRoundTrip(first: int, last: int, n: int)
    ensures Level(Interval(first, last, ShowInt(n))) == Success(n)
  {
    var s := ShowInt(n);
    assert s[0] == '-' || '0' <= s[0] <= '9';
    assert s != "hided" by {
      assert "hided"[0] == 'h';
    }
    ParseIntRoundTrip(n);
  }

  function Levels(ivs: seq<Interval>): (r: Result<seq<int>, LabelError>)
    ensures r.Success? ==> |r.value| == |ivs|
    ensures r.Success? ==> forall j :: 0 <= j < |ivs| ==> Level(ivs[j]) == Success(r.value[j])
    ensures r.Failure? <==> exists j :: 0 <= j < |ivs| && Level(ivs[j]).Failure?
    ensures r.Failure? ==> r.error.NotAnInteger?
    decreases |ivs|
  {
    if |ivs| == 0 then Success([])
    else
      var level :- Level(ivs[0]);
      LevelsShift(ivs);
      var rest :- Levels(ivs[1..]);
      LevelsShiftValues(ivs, level, rest);
      Success([level] + rest)
  }

  /** A bad cell after the first is a bad cell of the whole list. */
  lemma LevelsShift(ivs: seq<Interval>)
    requires |ivs| > 0
    ensures (exists j :: 0 <= j < |ivs| - 1 && Level(ivs[1..][j]).Failure?) ==>
      exists j :: 0 <= j < |ivs| && Level(ivs[j]).Failure?
  {
    if exists j :: 0 <= j < |ivs| - 1 && Level(ivs[1..][j]).Failure? {
      var j :| 0 <= j < |ivs| - 1 && Level(ivs[1..][j]).Failure?;
      assert ivs[j + 1] == ivs[1..][j];
    }
  }

  /** The levels of the first cell and of the rest line up with all cells. */
  lemma LevelsShiftValues(ivs: seq<Interval>, level: int, rest: seq<int>)
    requires |ivs| > 0 && Level(ivs[0]) == Success(level) && |rest| == |ivs| - 1
    ensures (forall j :: 0 <= j < |rest| ==> Level(ivs[1..][j]) == Success(rest[j])) ==>
      forall j :: 0 <= j < |ivs| ==> Level(ivs[j]) == Success(([level] + rest)[j])
  {
    var results := seq(|ivs|, j requires 0 <= j < |ivs| => Level(ivs[j]));
    assert results[1..] == seq(|ivs| - 1, j requires 0 <= j < |ivs| - 1 => Level(ivs[1..][j]));
    SuccessesLineUp(results, level, rest);
  }

  /** The error `Levels` reports is that of the first cell in file order
      that is not a level: every cell before it is one. */
  lemma {:induction false} LevelsFirstFailure(ivs: seq<Interval>)
    ensures Levels(ivs).Failure? ==>
      exists j :: 0 <= j < |ivs| && Level(ivs[j]) == Failure(Levels(ivs).error)
        && (forall i :: 0 <= i < j ==> Level(ivs[i]).Success?)
    decreases |ivs|
  {
    if |ivs| > 0 {
      var tail := ivs[1..];
      var head := Level(ivs[0]);
      if head.Failure? {
        assert Levels(ivs) == Failure(head.error);
        assert Level(ivs[0]) == Failure(Levels(ivs).error);
      } else if Levels(tail).Failure? {
        var e := Levels(tail).error;
        assert Levels(ivs) == Failure(e);
        LevelsFirstFailure(tail);
        var j :| 0 <= j < |tail| && Level(tail[j]) == Failure(e)
          && (forall i :: 0 <= i < j ==> Level(tail[i]).Success?);
        assert Level(ivs[j + 1]) == Failure(e) by {
          assert ivs[j + 1] == tail[j];
        }
        forall i | 0 <= i < j + 1
          ensures Level(ivs[i]).Success?
        {
          if i > 0 {
            assert ivs[i] == tail[i - 1];
          }
        }
      }
    }
  }


  /** The severity loop: every severity interval, in file order, writes its
      level over its slice. */
  function PaintSeverity(base: seq<int>, ivs: seq<Interval>, levels: seq<int>, ratio: real): (r: seq<int>)
    requires |levels| == |ivs|
    ensures |r| == |base|
    decreases |ivs|
  {
    if |ivs| == 0 then base
    else
      var m := |ivs| - 1;
      var prev := PaintSeverity(base, ivs[..m], levels[..m], ratio);
      AssignSlice(prev, FrameToSample(ivs[m].first, ratio), FrameToSample(ivs[m].last, ratio), levels[m])
  }

  /** A sample no severity interval covers keeps the background value. */
  lemma {:induction false} SeverityUncoveredKeepsBase(base: seq<int>, ivs: seq<Interval>, levels: seq<int>, ratio: real, k: int)
    requires |levels| == |ivs|
    requires 0 <= k < |base|
    requires forall j :: 0 <= j < |ivs| ==> !SpanCovers(ivs[j], ratio, k, |base|)
    ensures PaintSeverity(base, ivs, levels, ratio)[k] == base[k]
    decreases |ivs|
  {
    if |ivs| > 0 {
      var m := |ivs| - 1;
      assert forall j :: 0 <= j < m ==> ivs[..m][j] == ivs[j];
      SeverityUncoveredKeepsBase(base, ivs[..m], levels[..m], ratio, k);
    }
  }

  /** A covered sample holds the level of the LAST interval covering it:
      later rows overwrite earlier ones. */
  lemma {:induction false} SeverityLastWriterWins(base: seq<int>, ivs: seq<Interval>, levels: seq<int>, ratio: real, k: int, j: nat)
    requires |levels| == |ivs|
    requires 0 <= k < |base|
    requires j < |ivs| && SpanCovers(ivs[j], ratio, k, |base|)
    requires forall j' :: j < j' < |ivs| ==> !SpanCovers(ivs[j'], ratio, k, |base|)
    ensures PaintSeverity(base, ivs, levels, ratio)[k] == levels[j]
    decreases |ivs|
  {
    var m := |ivs| - 1;
    if j < m {
      assert forall j' :: j < j' < m ==> ivs[..m][j'] == ivs[j'];
      assert ivs[..m][j] == ivs[j] && levels[..m][j] == levels[j];
      SeverityLastWriterWins(base, ivs[..m], levels[..m], ratio, k, j);
    }
  }

  /** Lines 163-182 of `read_label_data`: the array length from the last
      activity row, the dictionary check and the two painting loops. */
  function Rasterise(s: Sections, ratio: real): (r: Result<LabelArrays, LabelError>)
    requires |s.activity| > 0
    ensures r.Success? ==>
      && r.value.Labels?
      && |r.value.activity| == |r.value.severity|
          == RoundHalfEven(s.activity[|s.activity| - 1].last as real * ratio) + 1
      && (forall j :: 0 <= j < |s.activity| ==> s.activity[j].name in ActivityCodes)
    ensures r.Failure? && r.error.UnknownActivity? ==> r.error.name !in ActivityCodes
    ensures r.Failure? <==>
      || RoundHalfEven(s.activity[|s.activity| - 1].last as real * ratio) < -1
      || (exists j :: 0 <= j < |s.activity| && s.activity[j].name !in ActivityCodes)
      || (exists j :: 0 <= j < |s.severity| && Level(s.severity[j]).Failure?)
    ensures RoundHalfEven(s.activity[|s.activity| - 1].last as real * ratio) < -1 ==> r == Failure(NegativeLength)
    ensures RoundHalfEven(s.activity[|s.activity| - 1].last as real * ratio) >= -1 && FirstUnknown(s.activity).Some? ==>
      r == Failure(UnknownActivity(FirstUnknown(s.activity).value))
    ensures (RoundHalfEven(s.activity[|s.activity| - 1].last as real * ratio) >= -1 && FirstUnknown(s.activity).None?
             && Levels(s.severity).Failure?) ==> r == Failure(Levels(s.severity).error)
  {
    var lastSample := RoundHalfEven(s.activity[|s.activity| - 1].last as real * ratio);
    if lastSample + 1 < 0 then Failure(NegativeLength)
    else
      var n := lastSample + 1;
      match FirstUnknown(s.activity)
      case Some(name) => Failure(UnknownActivity(name))
      case None =>
        match Levels(s.severity)
        case Failure(e) => Failure(e)
        case Success(levels) =>
          Success(Labels(PaintActivity(Fill(n, 0), s.activity, ratio),
                         PaintSeverity(Fill(n, -1), s.severity, levels, ratio)))
  }

  /** `read_label_data` after the file lookup, for timeline rows given as
      cells; the arrays are at `targetRate`. */
  function ReadLabelData(rows: seq<Row>, sourceRate: real, targetRate: real): (r: Result<LabelArrays, LabelError>)
    requires sourceRate > 0.0
    ensures r == Success(NoLabels) <==> Scan(rows, 0).Success? && |Scan(rows, 0).value.activity| == 0
    ensures Scan(rows, 0).Failure? ==> r == Failure(Scan(rows, 0).error)
    ensures Scan(rows, 0).Success? && |Scan(rows, 0).value.activity| > 0 ==>
      r == Rasterise(Scan(rows, 0).value, targetRate / sourceRate)
  {
    match Scan(rows, 0)
    case Failure(e) => Failure(e)
    case Success(s) =>
      if |s.activity| == 0 then Success(NoLabels)
      else Rasterise(s, targetRate / sourceRate)
  }

  /** A successful read with labels is the two painting loops run over the
      parsed sections, on arrays of the length `Rasterise` fixes. */
  lemma ReadLabelDataPaints(rows: seq<Row>, sourceRate: real, targetRate: real)
    requires sourceRate > 0.0
    ensures var r := ReadLabelData(rows, sourceRate, targetRate);
      r.Success? && r.value.Labels? ==>
        && Scan(rows, 0).Success? && Levels(Scan(rows, 0).value.severity).Success?
        && var s := Scan(rows, 0).value;
           var ratio := targetRate / sourceRate;
           var n := |r.value.activity|;
           && r.value.activity == PaintActivity(Fill(n, 0), s.activity, ratio)
           && r.value.severity == PaintSeverity(Fill(n, -1), s.severity, Levels(s.severity).value, ratio)
  {
  }

  /** Sample by sample, the activity array of a successful read is 1 exactly
      where a "walking" interval of section 3 lies, and 0 elsewhere. */
  lemma ReadLabelDataActivity(rows: seq<Row>, sourceRate: real, targetRate: real, k: int)
    requires sourceRate > 0.0
    ensures var r := ReadLabelData(rows, sourceRate, targetRate);
      r.Success? && r.value.Labels? && 0 <= k < |r.value.activity| ==>
        && Scan(rows, 0).Success?
        && var s := Scan(rows, 0).value;
           && (r.value.activity[k] == 0 || r.value.activity[k] == 1)
           && (r.value.activity[k] == 1 <==>
                 exists j :: 0 <= j < |s.activity| && s.activity[j].name == "walking"
                   && SpanCovers(s.activity[j], targetRate / sourceRate, k, |r.value.activity|))
  {
    var r := ReadLabelData(rows, sourceRate, targetRate);
    if r.Success? && r.value.Labels? && 0 <= k < |r.value.activity| {
      ReadLabelDataPaints(rows, sourceRate, targetRate);
      ActivityMarksWalking(|r.value.activity|, Scan(rows, 0).value.activity, targetRate / sourceRate, k);
    }
  }

  /** A sample no section-2 interval covers has severity -1. */
  lemma ReadLabelDataSeverityUnknown(rows: seq<Row>, sourceRate: real, targetRate: real, k: int)
    requires sourceRate > 0.0
    ensures var r := ReadLabelData(rows, sourceRate, targetRate);
      r.Success? && r.value.Labels? && 0 <= k < |r.value.activity| && Scan(rows, 0).Success?
      && (var sev := Scan(rows, 0).value.severity;
          forall j :: 0 <= j < |sev| ==> !SpanCovers(sev[j], targetRate / sourceRate, k, |r.value.activity|))
      ==> r.value.severity[k] == -1
  {
    var r := ReadLabelData(rows, sourceRate, targetRate);
    if r.Success? && r.value.Labels? && 0 <= k < |r.value.activity| && Scan(rows, 0).Success? {
      var sev := Scan(rows, 0).value.severity;
      if forall j :: 0 <= j < |sev| ==> !SpanCovers(sev[j], targetRate / sourceRate, k, |r.value.activity|) {
        ReadLabelDataPaints(rows, sourceRate, targetRate);
        SeverityUncoveredKeepsBase(Fill(|r.value.activity|, -1), sev, Levels(sev).value, targetRate / sourceRate, k);
      }
    }
  }

  /** A covered sample has the level of the last section-2 row covering it. */
  lemma ReadLabelDataSeverityLevel(rows: seq<Row>, sourceRate: real, targetRate: real, k: int, j: nat)
    requires sourceRate > 0.0
    ensures var r := ReadLabelData(rows, sourceRate, targetRate);
      r.Success? && r.value.Labels? && 0 <= k < |r.value.activity| && Scan(rows, 0).Success?
      && (var sev := Scan(rows, 0).value.severity;
          var n := |r.value.activity|;
          && j < |sev| && SpanCovers(sev[j], targetRate / sourceRate, k, n)
          && forall j' :: j < j' < |sev| ==> !SpanCovers(sev[j'], targetRate / sourceRate, k, n))
      ==> Level(Scan(rows, 0).value.severity[j]) == Success(r.value.severity[k])
  {
    var r := ReadLabelData(rows, sourceRate, targetRate);
    if r.Success? && r.value.Labels? && 0 <= k < |r.value.activity| && Scan(rows, 0).Success? {
      var sev := Scan(rows, 0).value.severity;
      var n := |r.value.activity|;
      if j < |sev| && SpanCovers(sev[j], targetRate / sourceRate, k, n)
        && forall j' :: j < j' < |sev| ==> !SpanCovers(sev[j'], targetRate / sourceRate, k, n)
      {
        ReadLabelDataPaints(rows, sourceRate, targetRate);
        SeverityLastWriterWins(Fill(n, -1), sev, Levels(sev).value, targetRate / sourceRate, k, j);
      }
    }
  }
}

=== FILE: moving_std.dfy ===
/** The argument checks that open preprocessing.py `movingstd`: the window
    mode flag, the window size and the series length. The numeric body
    (the windowed standard deviation itself) is not part of this model. */
module MovingStd {
  import opened Wrappers

  datatype WindowMode = Central | Forward | Backward

  /** The `windowmode` argument as Python sees it: a string or anything else. */
  datatype ModeArg = ModeText(text: string) | NotText

  /** The `window_size` argument: a Python `int` or anything else. */
  datatype SizeArg = IntSize(value: int) | NonIntSize

  /** The three `ValueError`s of the prologue, by the condition that raises them. */
  datatype StdError =
    | BadMode         // not a string, or not a window mode name once lower-cased
    | BadWindowSize   // not an integer, or below 1
    | SeriesTooShort  // below 2 for a one-sided window, or longer than the series

  /** A validated call: the mode and the window size `k`. */
  datatype StdConfig = StdConfig(mode: WindowMode, size: nat)

  /** `str.lower()` on one character, for every character whose lower-case
      form is an ASCII letter: A-Z and the KELVIN SIGN. Every other
      character is kept, which cannot turn a non-name into a name. */
  function LowerChar(c: char): (d: char)
    ensures 'A' <= c <= 'Z' ==> d as int == c as int + 32
    ensures !('A' <= c <= 'Z') && c != '\U{212A}' ==> d == c
    ensures c == '\U{212A}' ==> d == 'k'
  {
    if 'A' <= c <= 'Z' then (c as int + 32) as char
    else if c == '\U{212A}' then 'k'
    else c
  }

  function Lower(s: string): (t: string)
    ensures |t| == |s|
    ensures forall i :: 0 <= i < |s| ==> t[i] == LowerChar(s[i])
  {
    seq(|s|, i requires 0 <= i < |s| => LowerChar(s[i]))
  }

  function Name(m: WindowMode): string {
    match m
    case Central => "central"
    case Forward => "forward"
    case Backward => "backward"
  }

  /** The mode a lower-cased flag names, by exact match against the list
      `['central', 'forward', 'backward']`. */
  function ParseMode(s: string): (r: Option<WindowMode>)
    ensures r.Some? <==> exists m :: Lower(s) == Name(m)
    ensures r.Some? ==> Lower(s) == Name(r.value)
  {
    var t := Lower(s);
    if t == Name(Central) then Some(Central)
    else if t == Name(Forward) then Some(Forward)
    else if t == Name(Backward) then Some(Backward)
    else None
  }

  /** The names are distinct, so a name selects its own mode, whatever the case
      it is written in. */
  lemma ParseModeOfName(m: WindowMode, s: string)
    requires Lower(s) == Name(m)
    ensures ParseMode(s) == Some(m)
  {
    assert Name(Central)[0] == 'c' && Name(Forward)[0] == 'f' && Name(Backward)[0] == 'b';
  }

  /** The argument checks, in the order the code makes them. The central-mode
      check `window_size < 1` at line 58 is already covered by the general
      check at line 55 and so never raises. */
  function ValidateMovingStd(n: nat, mode: ModeArg, size: SizeArg): (r: Result<StdConfig, StdError>)
    ensures r.Success? <==>
      && mode.ModeText? && ParseMode(mode.text).Some?
      && size.IntSize? && size.value >= 1
      && (ParseMode(mode.text).value != Central ==> size.value >= 2)
      && size.value <= n
    ensures r.Success? ==> r.value.mode == ParseMode(mode.text).value && r.value.size == size.value
    ensures r == Failure(BadMode) <==> mode.NotText? || ParseMode(mode.text).None?
    ensures r == Failure(BadWindowSize) <==>
      mode.ModeText? && ParseMode(mode.text).Some? && (size.NonIntSize? || size.value < 1)
  {
    var m :- match mode
      case NotText => Failure(BadMode)
      case ModeText(text) => (match ParseMode(text)
        case None => Failure(BadMode)
        case Some(m) => Success(m));
    var k :- match size
      case NonIntSize => Failure(BadWindowSize)
      case IntSize(v) => if v < 1 then Failure(BadWindowSize) else Success(v as nat);
    if (m != Central && k < 2) || n < k then Failure(SeriesTooShort)
    else Success(StdConfig(m, k))
  }

  /** The number of points a window spans: `2k+1` centred, `k` one-sided. */
  function Width(cfg: StdConfig): nat {
    if cfg.mode == Central then 2 * cfg.size + 1 else cfg.size
  }

  /** A validated call has a window of at least two points, so the sample
      standard deviation's divisor `width - 1` is never zero, and a one-sided
      window fits inside the series. */
  lemma ValidatedWindowIsUsable(n: nat, mode: ModeArg, size: SizeArg)
    requires ValidateMovingStd(n, mode, size).Success?
    ensures var cfg := ValidateMovingStd(n, mode, size).value;
      Width(cfg) >= 2 && 1 <= cfg.size <= n && (cfg.mode != Central ==> Width(cfg) <= n)
  {
  }

  // ---------------------------------------------------------------------
  // The documented contractions

  /** The exact match rejects the one-letter contractions the documentation
      offers, and upper-case names are accepted. */
  lemma ExactMatchRejectsPrefix()
    ensures ParseMode("c") == None && ParseMode("f") == None && ParseMode("b") == None
    ensures ParseMode("Central") == Some(Central)
  {
    assert Lower("c") == "c";
    assert Lower("f") == "f";
    assert Lower("b") == "b";
    assert Lower("Central") == "central";
  }

  /** As documented: any non-empty prefix of a mode name, in any case,
      selects that mode. */
  function ParseModePrefix(s: string): (r: Option<WindowMode>)
    ensures r.Some? <==> exists m :: 0 < |s| && Lower(s) <= Name(m)
    ensures r.Some? ==> 0 < |s| && Lower(s) <= Name(r.value)
  {
    var t := Lower(s);
    if |t| == 0 then None
    else if t <= Name(Central) then Some(Central)
    else if t <= Name(Forward) then Some(Forward)
    else if t <= Name(Backward) then Some(Backward)
    else None
  }

  /** The prefix reading selects the mode whose name begins with the flag,
      for every contraction down to one letter. */
  lemma PrefixesSelectMode(m: WindowMode, s: string)
    requires 0 < |s| && Lower(s) <= Name(m)
    ensures ParseModePrefix(s) == Some(m)
  {
    assert Lower(s)[0] == Name(m)[0];
    assert Name(Central)[0] == 'c' && Name(Forward)[0] == 'f' && Name(Backward)[0] == 'b';
  }

  /** The prefix reading extends the exact one: every flag the code accepts
      is read the same way. */
  lemma PrefixReadingExtendsExact(s: string)
    requires ParseMode(s).Some?
    ensures ParseModePrefix(s) == ParseMode(s)
  {
    PrefixesSelectMode(ParseMode(s).value, s);
  }

  /** The corrected checks: the same as `ValidateMovingStd` with the mode read
      by prefix. */
  function ValidateMovingStdCorrected(n: nat, mode: ModeArg, size: SizeArg): (r: Result<StdConfig, StdError>)
    ensures r == Failure(BadMode) <==> mode.NotText? || ParseModePrefix(mode.text).None?
    ensures mode.ModeText? && ParseModePrefix(mode.text).Some? ==>
      (r.Success? <==>
        (size.IntSize? && 1 <= size.value <= n && (ParseModePrefix(mode.text).value != Central ==> size.value >= 2)))
    ensures r.Success? ==> r.value.mode == ParseModePrefix(mode.text).value && r.value.size == size.value
    ensures r == Failure(BadWindowSize) <==>
      mode.ModeText? && ParseModePrefix(mode.text).Some? && (size.NonIntSize? || size.value < 1)
  {
    var m :- match mode
      case NotText => Failure(BadMode)
      case ModeText(text) => (match ParseModePrefix(text)
        case None => Failure(BadMode)
        case Some(m) => Success(m));
    var k :- match size
      case NonIntSize => Failure(BadWindowSize)
      case IntSize(v) => if v < 1 then Failure(BadWindowSize) else Success(v as nat);
    if (m != Central && k < 2) || n < k then Failure(SeriesTooShort)
    else Success(StdConfig(m, k))
  }

  /** The correction only widens what is accepted: a call the code accepts is
      accepted with the same configuration, and "c" is now accepted. */
  lemma CorrectedAcceptsMore(n: nat, mode: ModeArg, size: SizeArg)
    requires ValidateMovingStd(n, mode, size).Success?
    ensures ValidateMovingStdCorrected(n, mode, size) == ValidateMovingStd(n, mode, size)
  {
    PrefixReadingExtendsExact(mode.text);
  }

  lemma OneLetterFlagAccepted()
    ensures ValidateMovingStdCorrected(10, ModeText("c"), IntSize(3)) == Success(StdConfig(Central, 3))
    ensures ValidateMovingStd(10, ModeText("c"), IntSize(3)) == Failure(BadMode)
  {
    ExactMatchRejectsPrefix();
    PrefixesSelectMode(Central, "c");
    assert Lower("c") == "c";
  }
}

=== FILE: pyops.dfy ===
/** The handful of Python and numpy primitives the pipeline's index
    arithmetic depends on, written out over unbounded integers and exact
    reals. */
module PyOps {

  function Max(a: int, b: int): int {
    if a < b then b else a
  }

  function Min(a: int, b: int): int {
    if a < b then a else b
  }

  /** `int(x)` on a float: truncation toward zero (a floor only for x >= 0). */
  function Trunc(x: real): (r: int)
    ensures 0.0 <= x ==> r as real <= x < r as real + 1.0
    ensures x < 0.0 ==> r as real - 1.0 < x <= r as real
  {
    if x >= 0.0 then x.Floor else -((-x).Floor)
  }

  /** Truncation keeps the order of its arguments. */
  lemma TruncMonotone(x: real, y: real)
    requires x <= y
    ensures Trunc(x) <= Trunc(y)
  {
  }

  /** `np.round(x)`: the nearest integer, a half-way value going to the even
      neighbour ("banker's rounding"). The two clauses determine the result. */
  function RoundHalfEven(x: real): (r: int)
    ensures -0.5 <= x - r as real <= 0.5
    ensures x - r as real == 0.5 || x - r as real == -0.5 ==> r % 2 == 0
  {
    var f := x.Floor;
    var d := x - f as real;
    if d < 0.5 then f
    else if d > 0.5 then f + 1
    else if f % 2 == 0 then f
    else f + 1
  }

  /** The position that the Python slice bound `i` denotes in a sequence of
      length `n`: a negative bound counts from the end, and the result is
      clamped to `0..n`. */
  function SliceIndex(i: int, n: nat): (k: nat)
    ensures k <= n
    ensures 0 <= i <= n ==> k == i
    ensures -(n as int) <= i < 0 ==> k == n + i
    ensures i > n ==> k == n
    ensures i < -(n as int) ==> k == 0
  {
    if i < 0 then (if n + i < 0 then 0 else n + i)
    else if i <= n then i
    else n
  }

  /** `s[i:]` */
  function SliceFrom<T>(s: seq<T>, i: int): (r: seq<T>)
    ensures |r| == |s| - SliceIndex(i, |s|)
    ensures forall k :: 0 <= k < |r| ==> r[k] == s[SliceIndex(i, |s|) + k]
  {
    s[SliceIndex(i, |s|)..]
  }

  /** `s[:j]` */
  function SliceTo<T>(s: seq<T>, j: int): (r: seq<T>)
    ensures |r| == SliceIndex(j, |s|)
    ensures forall k :: 0 <= k < |r| ==> r[k] == s[k]
  {
    s[..SliceIndex(j, |s|)]
  }

  /** `s[i:j] = v` on a numpy array (the scalar is broadcast); returns the
      updated copy. */
  function AssignSlice(s: seq<int>, i: int, j: int, v: int): (r: seq<int>)
    ensures |r| == |s|
    ensures forall k :: 0 <= k < |s| && SliceIndex(i, |s|) <= k < SliceIndex(j, |s|) ==> r[k] == v
    ensures forall k :: 0 <= k < |s| && !(SliceIndex(i, |s|) <= k < SliceIndex(j, |s|)) ==> r[k] == s[k]
  {
    var a := SliceIndex(i, |s|);
    var b := SliceIndex(j, |s|);
    seq(|s|, k requires 0 <= k < |s| => if a <= k < b then v else s[k])
  }
}

=== FILE: sync.dfy ===
/** Alignment of the sensor stream with the two label streams on one shared
    event (the start of the 2-metre walk), read_data.py `sync_data`. */
module Sync {
  import opened PyOps

  /** Time of the shared event in each recording's own clock, in seconds:
      the video (label) clock first and the sensor clock second, the column
      order of the synchronisation sheet. */
  datatype SyncAnchor = SyncAnchor(videoSec: real, sensorSec: real)

  /** How many leading samples are dropped from each side. */
  datatype Drops = Drops(sensor: nat, video: nat)

  /** The four outputs of `sync_data`: sensor samples, activity labels,
      severity labels and the time axis in seconds. */
  datatype Synced<T> = Synced(acc: seq<T>, labels: seq<int>, chorea: seq<int>, time: seq<real>)

  /** Samples before the event on the sensor side, `int(rate*sensorSec)`. */
  function SensorAnchor(rate: real, anchor: SyncAnchor): int {
    Trunc(rate * anchor.sensorSec)
  }

  /** Samples before the event on the video side, `int(rate*videoSec)`. */
  function VideoAnchor(rate: real, anchor: SyncAnchor): int {
    Trunc(rate * anchor.videoSec)
  }

  /** Each anchor is the event time in samples, truncated toward zero: never
      further from zero than the exact value and less than one sample short
      of it. */
  lemma AnchorsTruncate(rate: real, anchor: SyncAnchor)
    ensures var x, a := rate * anchor.sensorSec, SensorAnchor(rate, anchor);
      (x >= 0.0 ==> a as real <= x < a as real + 1.0) && (x < 0.0 ==> a as real - 1.0 < x <= a as real)
    ensures var x, a := rate * anchor.videoSec, VideoAnchor(rate, anchor);
      (x >= 0.0 ==> a as real <= x < a as real + 1.0) && (x < 0.0 ==> a as real - 1.0 < x <= a as real)
  {
  }

  /** Only the stream that reaches the event later is trimmed, by exactly
      the difference of the two anchors. */
  function LeadingDrops(rate: real, anchor: SyncAnchor): (d: Drops)
    ensures d.sensor == 0 || d.video == 0
    ensures d.sensor - d.video == SensorAnchor(rate, anchor) - VideoAnchor(rate, anchor)
  {
    var a := SensorAnchor(rate, anchor);
    var l := VideoAnchor(rate, anchor);
    Drops(Max(0, a - l), Max(0, l - a))
  }

  /** `sync_data`: left-trim one side, right-trim the sensor stream to the
      label length, and build the time axis of the surviving label samples. */
  function SyncData<T>(acc: seq<T>, labels: seq<int>, chorea: seq<int>, anchor: SyncAnchor, rate: real): (r: Synced<T>)
    requires rate > 0.0
    ensures |r.labels| == Max(0, |labels| - LeadingDrops(rate, anchor).video)
    ensures |r.chorea| == Max(0, |chorea| - LeadingDrops(rate, anchor).video)
    ensures |r.time| == |r.labels|
    ensures |r.acc| == Min(Max(0, |acc| - LeadingDrops(rate, anchor).sensor), |r.labels|)
    ensures forall i :: 0 <= i < |r.labels| ==> r.labels[i] == labels[LeadingDrops(rate, anchor).video + i]
    ensures forall i :: 0 <= i < |r.chorea| ==> r.chorea[i] == chorea[LeadingDrops(rate, anchor).video + i]
    ensures forall i :: 0 <= i < |r.acc| ==> r.acc[i] == acc[LeadingDrops(rate, anchor).sensor + i]
    ensures forall i :: 0 <= i < |r.time| ==> r.time[i] == (i + LeadingDrops(rate, anchor).video) as real / rate
  {
    TrimBy(acc, labels, chorea, LeadingDrops(rate, anchor), rate)
  }

  /** The trimming itself, for given leading drops. */
  function TrimBy<T>(acc: seq<T>, labels: seq<int>, chorea: seq<int>, d: Drops, rate: real): (r: Synced<T>)
    requires rate > 0.0
    ensures |r.labels| == Max(0, |labels| - d.video)
    ensures |r.chorea| == Max(0, |chorea| - d.video)
    ensures |r.time| == |r.labels|
    ensures |r.acc| == Min(Max(0, |acc| - d.sensor), |r.labels|)
    ensures forall i :: 0 <= i < |r.labels| ==> r.labels[i] == labels[d.video + i]
    ensures forall i :: 0 <= i < |r.chorea| ==> r.chorea[i] == chorea[d.video + i]
    ensures forall i :: 0 <= i < |r.acc| ==> r.acc[i] == acc[d.sensor + i]
    ensures forall i :: 0 <= i < |r.time| ==> r.time[i] == (i + d.video) as real / rate
  {
    var acc1 := SliceFrom(acc, d.sensor);
    var labels1 := SliceFrom(labels, d.video);
    var chorea1 := SliceFrom(chorea, d.video);
    var acc2 := SliceTo(acc1, |labels1|);
    var time := TimeAxis(|labels1|, d.video, rate);
    Synced(acc2, labels1, chorea1, time)
  }

  /** `np.array(range(n)) / rate + first / rate`: the time in seconds of
      each kept label sample, counted from the start of the label stream. */
  function TimeAxis(n: nat, first: nat, rate: real): (t: seq<real>)
    requires rate > 0.0
    ensures |t| == n
    ensures forall i :: 0 <= i < n ==> t[i] == (i + first) as real / rate
  {
    var firstSec := first as real / rate;
    var t := seq(n, i => i as real / rate + firstSec);
    assert forall i :: 0 <= i < n ==> t[i] == (i + first) as real / rate by {
      forall i | 0 <= i < n
        ensures t[i] == (i + first) as real / rate
      {
        DivisionDistributes(i as real, first as real, rate);
      }
    }
    t
  }

  lemma DivisionMonotone(a: real, b: real, c: real)
    requires c > 0.0 && a < b
    ensures a / c < b / c
  {
  }

  lemma DivisionDistributes(a: real, b: real, c: real)
    requires c > 0.0
    ensures a / c + b / c == (a + b) / c
  {
  }

  /** No stream grows: the sensor output is never longer than the label
      output, and neither is longer than its own input. */
  lemma SyncNeverLengthens<T>(acc: seq<T>, labels: seq<int>, chorea: seq<int>, anchor: SyncAnchor, rate: real)
    requires rate > 0.0
    ensures var r := SyncData(acc, labels, chorea, anchor, rate);
      |r.acc| <= |r.labels| <= |labels| && |r.acc| <= |acc| && |r.chorea| <= |chorea|
  {
  }

  /** The time axis advances by exactly one sample period and is strictly
      increasing; its first entry is the time trimmed from the label side. */
  lemma TimeAxisIncreasing<T>(acc: seq<T>, labels: seq<int>, chorea: seq<int>, anchor: SyncAnchor, rate: real)
    requires rate > 0.0
    ensures var r := SyncData(acc, labels, chorea, anchor, rate);
      && (|r.time| > 0 ==> r.time[0] == LeadingDrops(rate, anchor).video as real / rate)
      && (forall i :: 0 <= i < |r.time| - 1 ==> r.time[i + 1] - r.time[i] == 1.0 / rate)
      && (forall i, j :: 0 <= i < j < |r.time| ==> r.time[i] < r.time[j])
  {
    var r := SyncData(acc, labels, chorea, anchor, rate);
    var ld := LeadingDrops(rate, anchor).video;
    forall i | 0 <= i < |r.time| - 1
      ensures r.time[i + 1] - r.time[i] == 1.0 / rate
    {
      DivisionDistributes((i + ld) as real, 1.0, rate);
    }
    forall i, j | 0 <= i < j < |r.time|
      ensures r.time[i] < r.time[j]
    {
      DivisionMonotone((i + ld) as real, (j + ld) as real, rate);
    }
  }

  /** Streams that are already aligned (equal anchors) and of equal length
      come back unchanged, with the time axis starting at zero. */
  lemma SyncIdempotent<T>(acc: seq<T>, labels: seq<int>, chorea: seq<int>, sec: real, rate: real)
    requires rate > 0.0
    requires |acc| == |labels| == |chorea|
    ensures var r := SyncData(acc, labels, chorea, SyncAnchor(sec, sec), rate);
      && r.acc == acc && r.labels == labels && r.chorea == chorea
      && forall i :: 0 <= i < |r.time| ==> r.time[i] == i as real / rate
  {
  }

  /** A sensor anchor at 5.0 s and a video anchor at 3.0 s, 100 Hz: the first
      200 sensor samples are dropped, and 1000 sensor against 750 label
      samples end at 750 each. */
  lemma SyncExample<T>(acc: seq<T>, labels: seq<int>, chorea: seq<int>)
    requires |acc| == 1000 && |labels| == 750 && |chorea| == 750
    ensures LeadingDrops(100.0, SyncAnchor(3.0, 5.0)) == Drops(200, 0)
    ensures var r := SyncData(acc, labels, chorea, SyncAnchor(3.0, 5.0), 100.0);
      |r.acc| == 750 && |r.labels| == 750 && r.acc[0] == acc[200]
  {
    assert SensorAnchor(100.0, SyncAnchor(3.0, 5.0)) == 500;
    assert VideoAnchor(100.0, SyncAnchor(3.0, 5.0)) == 300;
  }

  /** The docstring promises outputs of the same size, but the final trim
      only shortens the sensor stream: a sensor stream that ends before the
      labels do leaves the outputs of different lengths. */
  lemma SyncShortSensorCounterexample()
    ensures var r := SyncData([0], [1, 1], [2, 2], SyncAnchor(0.0, 0.0), 100.0);
      |r.acc| == 1 && |r.labels| == 2
  {
  }

  /** The evidently intended alignment: all four outputs cut to the length
      the sensor and label streams have in common after the leading trim. */
  function SyncDataEqualLength<T>(acc: seq<T>, labels: seq<int>, chorea: seq<int>, anchor: SyncAnchor, rate: real): (r: Synced<T>)
    requires rate > 0.0
    ensures |r.acc| == |r.labels| == |r.chorea| == |r.time|
    ensures var s := SyncData(acc, labels, chorea, anchor, rate);
      && r.acc <= s.acc && r.labels <= s.labels && r.chorea <= s.chorea && r.time <= s.time
      && (|r.acc| == |s.acc| || |r.acc| == |s.chorea|)
  {
    var s := SyncData(acc, labels, chorea, anchor, rate);
    var n := Min(|s.acc|, |s.chorea|);
    Synced(s.acc[..n], s.labels[..n], s.chorea[..n], s.time[..n])
  }
}

=== FILE: windowing.dfy ===
/** Fixed-length, overlapping windowing of aligned streams and the reduction
    of per-sample labels to one label per window, preprocessing.py
    `data_windowing`. */
module Windowing {
  import opened Wrappers
  import opened PyOps

  datatype WindowError =
    | WindowLongerThanSeries  // sliding_window_view: window larger than the array
    | DegenerateShape         // squeeze() leaves too few axes for the axis=1 reductions
    | NotThreeChannels        // np.append onto the empty (0, 3, width) accumulator

  /** The outputs of `data_windowing`: windows shaped channels x width, one
      category label and one severity value per window, the inclusion mask
      and the window count. */
  datatype Windowed = Windowed(
    windows: seq<seq<seq<real>>>,
    labels: seq<int>,
    severity: seq<real>,
    inclusion: seq<int>,
    count: nat)

  /** Every sample carries the same number of channels (a numpy matrix). */
  predicate Rectangular(data: seq<seq<real>>) {
    forall i :: 0 <= i < |data| ==> |data[i]| == |data[0]|
  }

  function Channels(data: seq<seq<real>>): nat {
    if |data| == 0 then 0 else |data[0]|
  }

  // ---------------------------------------------------------------------
  // Window positions

  /** First sample of window `k`, `k * stride`, written as repeated steps
      so that the index arithmetic stays linear. */
  function WindowStart(k: nat, stride: nat): nat {
    if k == 0 then 0 else WindowStart(k - 1, stride) + stride
  }

  lemma {:induction false} WindowStartIsProduct(k: nat, stride: nat)
    ensures WindowStart(k, stride) == k * stride
  {
    if k > 0 {
      WindowStartIsProduct(k - 1, stride);
    }
  }

  /** `sliding_window_view(x, width)[::stride]` keeps the starts
      0, stride, 2*stride, ... among the `n - width + 1` possible ones:
      one window, plus those of the series without its first stride. */
  function WindowCount(n: nat, width: nat, stride: nat): (c: nat)
    requires width <= n && stride > 0
    ensures c >= 1
    decreases n
  {
    if n - width < stride then 1 else 1 + WindowCount(n - stride, width, stride)
  }

  /** The count in closed form, `(n - width) // stride + 1`. */
  lemma {:induction false} WindowCountClosedForm(n: nat, width: nat, stride: nat)
    requires width <= n && stride > 0
    ensures WindowCount(n, width, stride) == (n - width) / stride + 1
    decreases n
  {
    if n - width >= stride {
      WindowCountClosedForm(n - stride, width, stride);
      DivStep(n - width, stride);
    }
  }

  lemma DivStep(a: nat, b: nat)
    requires 0 < b <= a
    ensures a / b == (a - b) / b + 1
  {
    var q := (a - b) / b;
    var r := (a - b) % b;
    assert (q + 1) * b == q * b + b;
    DivUnique(a, b, q + 1, r);
  }

  lemma MulAtLeast(x: int, b: nat)
    requires x >= 1
    ensures x * b >= b
  {
  }

  /** Quotient and remainder are unique. */
  lemma DivUnique(a: int, b: int, q: int, r: int)
    requires b > 0 && a == q * b + r && 0 <= r < b
    ensures a / b == q
  {
    var q' := a / b;
    var r' := a % b;
    assert (q' - q) * b == r - r';
    if q' > q {
      MulAtLeast(q' - q, b);
      assert false;
    } else if q' < q {
      MulAtLeast(q - q', b);
      assert false;
    }
  }

  /** The window count is exactly the number of strided starts whose window
      fits inside the series: every counted window fits and the next one
      would not. */
  lemma {:induction false} WindowCountExact(n: nat, width: nat, stride: nat)
    requires 0 < stride && width <= n
    ensures forall k: nat :: k < WindowCount(n, width, stride) ==> WindowStart(k, stride) + width <= n
    ensures WindowStart(WindowCount(n, width, stride), stride) + width > n
    decreases n
  {
    if n - width >= stride {
      WindowCountExact(n - stride, width, stride);
      forall k: nat | k < WindowCount(n, width, stride)
        ensures WindowStart(k, stride) + width <= n
      {
        if k > 0 {
          assert WindowStart(k - 1, stride) + width <= n - stride;
        }
      }
    }
  }

  lemma WindowFits(n: nat, width: nat, stride: nat, k: nat)
    requires 0 < stride && width <= n && k < WindowCount(n, width, stride)
    ensures WindowStart(k, stride) + width <= n
  {
    WindowCountExact(n, width, stride);
  }

  /** The strided sliding windows of one stream: window `k` is the `width`
      samples from `k*stride` on, in their original order. */
  function Windows<T>(s: seq<T>, width: nat, stride: nat): (r: seq<seq<T>>)
    requires 0 < stride && width <= |s|
    ensures |r| == WindowCount(|s|, width, stride)
    ensures forall k :: 0 <= k < |r| ==> WindowStart(k, stride) + width <= |s|
    ensures forall k :: 0 <= k < |r| ==> |r[k]| == width
    ensures forall k, j :: 0 <= k < |r| && 0 <= j < width ==> r[k][j] == s[WindowStart(k, stride) + j]
  {
    var count := WindowCount(|s|, width, stride);
    var r := seq(count, k requires 0 <= k < count => WindowFits(|s|, width, stride, k); Window(s, WindowStart(k, stride), width));
    forall k | 0 <= k < |r|
      ensures WindowStart(k, stride) + width <= |s|
    {
      WindowFits(|s|, width, stride, k);
    }
    r
  }

  /** The `width` samples from `start` on. */
  function Window<T>(s: seq<T>, start: nat, width: nat): (w: seq<T>)
    requires start + width <= |s|
    ensures |w| == width
    ensures forall j :: 0 <= j < width ==> w[j] == s[start + j]
  {
    s[start..start + width]
  }

  /** The sensor windows in numpy's layout, channels x width:
      `windows[k][c][j] == data[k*stride + j][c]`. */
  function DataWindows(data: seq<seq<real>>, width: nat, stride: nat): (r: seq<seq<seq<real>>>)
    requires 0 < stride && width <= |data| && Rectangular(data)
    ensures |r| == WindowCount(|data|, width, stride)
    ensures forall k :: 0 <= k < |r| ==> WindowStart(k, stride) + width <= |data|
    ensures forall k :: 0 <= k < |r| ==> |r[k]| == Channels(data)
    ensures forall k, c :: 0 <= k < |r| && 0 <= c < Channels(data) ==> |r[k][c]| == width
    ensures forall k, c, j :: 0 <= k < |r| && 0 <= c < Channels(data) && 0 <= j < width ==>
      r[k][c][j] == data[WindowStart(k, stride) + j][c]
  {
    var count := WindowCount(|data|, width, stride);
    var r := seq(count, k requires 0 <= k < count =>
      WindowFits(|data|, width, stride, k);
      seq(Channels(data), c requires 0 <= c < Channels(data) =>
        seq(width, j requires 0 <= j < width => data[WindowStart(k, stride) + j][c])));
    forall k | 0 <= k < |r|
      ensures WindowStart(k, stride) + width <= |data|
    {
      WindowFits(|data|, width, stride, k);
    }
    r
  }

  // ---------------------------------------------------------------------
  // Category label: the statistical mode

  /** Occurrences of `v` in `s`. */
  function Count(s: seq<int>, v: int): nat
    decreases |s|
  {
    if |s| == 0 then 0
    else (if s[0] == v then 1 else 0) + Count(s[1..], v)
  }

  lemma {:induction false} CountAbsent(s: seq<int>, v: int)
    requires v !in s
    ensures Count(s, v) == 0
    decreases |s|
  {
    if |s| > 0 {
      CountAbsent(s[1..], v);
    }
  }

  /** `scipy.stats.mode`: a most frequent value, the smallest one among ties. */
  ghost predicate IsMode(s: seq<int>, m: int) {
    && m in s
    && (forall v :: Count(s, v) <= Count(s, m))
    && (forall v :: Count(s, v) == Count(s, m) ==> m <= v)
  }

  /** The best candidate among the first `i` entries of `s`. */
  function ModeAmong(s: seq<int>, i: nat): (m: int)
    requires 0 < i <= |s|
    ensures m in s[..i]
    ensures forall j :: 0 <= j < i ==> Count(s, s[j]) <= Count(s, m)
    ensures forall j :: 0 <= j < i && Count(s, s[j]) == Count(s, m) ==> m <= s[j]
    decreases i
  {
    if i == 1 then s[0]
    else
      var best := ModeAmong(s, i - 1);
      var c := s[i - 1];
      assert s[..i] == s[..i - 1] + [c];
      if Count(s, c) > Count(s, best) || (Count(s, c) == Count(s, best) && c < best) then c
      else best
  }

  /** The window's category label. Ties go to the smallest value, and the
      ambiguous code -9 is counted like any other value. */
  function Mode(s: seq<int>): (m: int)
    requires |s| > 0
    ensures IsMode(s, m)
    ensures forall x :: IsMode(s, x) ==> x == m
  {
    var m := ModeAmong(s, |s|);
    assert s[..|s|] == s;
    CountPresent(s, 0);
    assert forall v :: Count(s, v) <= Count(s, m) && (Count(s, v) == Count(s, m) ==> m <= v) by {
      forall v
        ensures Count(s, v) <= Count(s, m) && (Count(s, v) == Count(s, m) ==> m <= v)
      {
        if v !in s {
          CountAbsent(s, v);
        }
      }
    }
    m
  }

  lemma {:induction false} CountPresent(s: seq<int>, j: nat)
    requires j < |s|
    ensures Count(s, s[j]) > 0
    decreases |s|
  {
    if j > 0 {
      CountPresent(s[1..], j - 1);
      assert s[1..][j - 1] == s[j];
    }
  }

  // ---------------------------------------------------------------------
  // Severity label: the mean of the valid readings, if they are a majority

  /** `np.sum(w >= 0)` */
  function ValidCount(w: seq<int>): (c: nat)
    ensures c <= |w|
    decreases |w|
  {
    if |w| == 0 then 0
    else (if w[0] >= 0 then 1 else 0) + ValidCount(w[1..])
  }

  /** `np.sum(w * (w >= 0))` */
  function MaskedSum(w: seq<int>): (t: int)
    ensures t >= 0
    decreases |w|
  {
    if |w| == 0 then 0
    else w[0] * (if w[0] >= 0 then 1 else 0) + MaskedSum(w[1..])
  }

  /** No valid reading gives a zero count and sum, only valid readings give
      the full count, and the masked sum is at least every valid reading. */
  lemma {:induction false} MaskedCountsOfReadings(w: seq<int>)
    ensures ValidCount(w) == 0 <==> forall i :: 0 <= i < |w| ==> w[i] < 0
    ensures ValidCount(w) == |w| <==> forall i :: 0 <= i < |w| ==> w[i] >= 0
    ensures (forall i :: 0 <= i < |w| ==> w[i] < 0) ==> MaskedSum(w) == 0
    ensures forall i :: 0 <= i < |w| && w[i] >= 0 ==> MaskedSum(w) >= w[i]
    decreases |w|
  {
    if |w| > 0 {
      MaskedCountsOfReadings(w[1..]);
      assert forall i :: 1 <= i < |w| ==> w[i] == w[1..][i - 1];
    }
  }

  /** Reference: the valid (non-negative) readings, in order. */
  function ValidValues(w: seq<int>): (v: seq<int>)
    ensures forall i :: 0 <= i < |v| ==> v[i] >= 0 && v[i] in w
    decreases |w|
  {
    if |w| == 0 then []
    else
      var rest := ValidValues(w[1..]);
      assert forall x :: x in w[1..] ==> x in w;
      (if w[0] >= 0 then [w[0]] else []) + rest
  }

  function Sum(s: seq<int>): int
    decreases |s|
  {
    if |s| == 0 then 0 else s[0] + Sum(s[1..])
  }

  function Mean(s: seq<int>): real
    requires |s| > 0
  {
    Sum(s) as real / |s| as real
  }

  /** The masked sums of the code compute the count and the sum of the valid
      readings. */
  lemma {:induction false} MaskedSumsAreValidReadings(w: seq<int>)
    ensures ValidCount(w) == |ValidValues(w)|
    ensures MaskedSum(w) == Sum(ValidValues(w))
    decreases |w|
  {
    if |w| > 0 {
      MaskedSumsAreValidReadings(w[1..]);
      var x := w[0];
      if x >= 0 {
        var v := [x] + ValidValues(w[1..]);
        assert ValidValues(w) == v && v[1..] == ValidValues(w[1..]);
        assert x * 1 == x;
      } else {
        assert ValidValues(w) == ValidValues(w[1..]);
        assert x * 0 == 0;
      }
    }
  }

  /** A window's severity: the mean of its valid readings when they are a
      strict majority of the `width` samples, the sentinel -1 otherwise. */
  function WindowSeverity(w: seq<int>, width: nat): (r: real)
    ensures 2 * |ValidValues(w)| > width ==> r == Mean(ValidValues(w))
    ensures 2 * |ValidValues(w)| <= width ==> r == -1.0
  {
    MaskedSumsAreValidReadings(w);
    var valid := ValidCount(w);
    if valid as real > width as real / 2.0 then MaskedSum(w) as real / valid as real
    else -1.0
  }

  lemma {:induction false} SumBounds(s: seq<int>, lo: int, hi: int)
    requires forall i :: 0 <= i < |s| ==> lo <= s[i] <= hi
    ensures |s| * lo <= Sum(s) <= |s| * hi
    decreases |s|
  {
    if |s| > 0 {
      SumBounds(s[1..], lo, hi);
    }
  }

  lemma RealQuotientBounds(total: int, n: int, lo: int, hi: int)
    requires n > 0 && n * lo <= total <= n * hi
    ensures lo as real <= total as real / n as real <= hi as real
  {
    assert (n * lo) as real == n as real * lo as real;
    assert (n * hi) as real == n as real * hi as real;
  }

  /** A valid severity lies between the smallest and the largest valid
      reading of its window, so it is never negative; otherwise it is
      exactly -1. */
  lemma SeverityWithinValidRange(w: seq<int>, width: nat, lo: int, hi: int)
    requires 0 <= lo
    requires forall i :: 0 <= i < |w| && w[i] >= 0 ==> lo <= w[i] <= hi
    ensures var r := WindowSeverity(w, width);
      if 2 * ValidCount(w) > width then 0.0 <= lo as real <= r <= hi as real else r == -1.0
  {
    MaskedSumsAreValidReadings(w);
    var v := ValidValues(w);
    if 2 * |v| > width {
      assert forall i :: 0 <= i < |v| ==> lo <= v[i] <= hi by {
        forall i | 0 <= i < |v|
          ensures lo <= v[i] <= hi
        {
          var j :| 0 <= j < |w| && w[j] == v[i];
        }
      }
      SumBounds(v, lo, hi);
      RealQuotientBounds(Sum(v), |v|, lo, hi);
    }
  }

  /** Example: six valid readings {1,1,2,2,3,0} and four invalid
      ones in a window of 10 give 1.5. */
  lemma SeverityExample()
    ensures WindowSeverity([1, 1, 2, 2, 3, 0, -1, -1, -1, -1], 10) == 1.5
  {
    var w := [1, 1, 2, 2, 3, 0, -1, -1, -1, -1];
    assert ValidCount(w) == 6 && MaskedSum(w) == 9;
    assert 9 as real / 6 as real == 1.5;
  }

  // ---------------------------------------------------------------------
  // Inclusion mask

  /** `data.shape[0] // stride * stride`: the end of the last whole stride. */
  function UpperLimit(n: nat, stride: nat): (u: nat)
    requires stride > 0
    ensures u <= n < u + stride
    ensures u == WindowStart(n / stride, stride)
  {
    WindowStartIsProduct(n / stride, stride);
    n / stride * stride
  }

  /** When the series holds at least one window, the tail cut starts at a
      non-negative index, so Python's negative-index wrap never applies. */
  lemma UpperLimitPastOverlap(n: nat, width: nat, overlap: nat)
    requires overlap < width <= n
    ensures UpperLimit(n, width - overlap) > overlap
  {
  }

  /** `inclusion_idx = std_idx[std_idx == 1]; inclusion_idx[upper_limit - overlap:] = 0`.
      The selection keeps only the entries equal to 1, so the copy starts
      as all ones; `stdIdx` itself is not changed. */
  function InclusionMask(stdIdx: seq<int>, n: nat, overlap: nat, stride: nat): (m: seq<int>)
    requires stride > 0
    ensures |m| == Count(stdIdx, 1)
    ensures forall i :: 0 <= i < |m| ==> m[i] == 0 || m[i] == 1
    ensures UpperLimit(n, stride) >= overlap ==>
      forall i :: 0 <= i < |m| ==> (m[i] == 1 <==> i < UpperLimit(n, stride) - overlap)
    ensures UpperLimit(n, stride) < overlap ==>
      forall i :: 0 <= i < |m| ==> (m[i] == 1 <==> i < |m| + UpperLimit(n, stride) - overlap)
  {
    var kept := seq(Count(stdIdx, 1), _ => 1);
    AssignSlice(kept, UpperLimit(n, stride) - overlap, |kept|, 0)
  }

  // ---------------------------------------------------------------------
  // data_windowing

  /** `mode(windowed_labels, axis=1)`: the mode of every label window. */
  function WindowLabels(labels: seq<int>, width: nat, stride: nat): (r: seq<int>)
    requires 0 < stride && 0 < width <= |labels|
    ensures |r| == WindowCount(|labels|, width, stride)
    ensures forall k :: 0 <= k < |r| ==> IsMode(Windows(labels, width, stride)[k], r[k])
  {
    var ws := Windows(labels, width, stride);
    seq(|ws|, k requires 0 <= k < |ws| => Mode(ws[k]))
  }

  /** The severity of every severity window. */
  function WindowSeverities(chorea: seq<int>, width: nat, stride: nat): (r: seq<real>)
    requires 0 < stride && width <= |chorea|
    ensures |r| == WindowCount(|chorea|, width, stride)
    ensures forall k :: 0 <= k < |r| ==> r[k] == WindowSeverity(Windows(chorea, width, stride)[k], width)
  {
    var ws := Windows(chorea, width, stride);
    seq(|ws|, k requires 0 <= k < |ws| => WindowSeverity(ws[k], width))
  }

  /** The three streams are windowed independently and nothing compares their
      lengths: each output has the window count of its own stream, and the
      returned count is that of the label stream. A stream shorter than the
      window stops `sliding_window_view`; a label or severity stream with a
      single window, or a window of one sample, is squeezed to one axis and
      stops the `axis=1` reductions. */
  function DataWindowing(data: seq<seq<real>>, labels: seq<int>, chorea: seq<int>, width: nat, overlap: nat, stdIdx: seq<int>): (r: Result<Windowed, WindowError>)
    requires overlap < width
    requires Rectangular(data)
    ensures r.Failure? <==>
      || |data| < width || |labels| < width || |chorea| < width || width < 2
      || WindowCount(|chorea|, width, width - overlap) < 2
      || WindowCount(|labels|, width, width - overlap) < 2
      || Channels(data) != 3
    ensures |data| < width || |labels| < width || |chorea| < width ==> r == Failure(WindowLongerThanSeries)
    ensures (|data| >= width && |labels| >= width && |chorea| >= width
             && (width < 2 || WindowCount(|chorea|, width, width - overlap) < 2
                 || WindowCount(|labels|, width, width - overlap) < 2)) ==>
      r == Failure(DegenerateShape)
    ensures (r.Failure? && |data| >= width && |labels| >= width && |chorea| >= width && width >= 2
             && WindowCount(|chorea|, width, width - overlap) >= 2
             && WindowCount(|labels|, width, width - overlap) >= 2) ==>
      r.error == NotThreeChannels
    ensures r.Success? ==> width <= |data| && width <= |labels| && width <= |chorea| && 2 <= width
    ensures r.Success? ==>
      var out := r.value;
      var stride := width - overlap;
      && out.count == WindowCount(|labels|, width, stride) == |out.labels|
      && |out.windows| == WindowCount(|data|, width, stride)
      && |out.severity| == WindowCount(|chorea|, width, stride)
      && (forall k :: 0 <= k < |out.windows| ==> WindowStart(k, stride) + width <= |data|)
      && (forall k, c, j :: 0 <= k < |out.windows| && 0 <= c < Channels(data) && 0 <= j < width ==>
            |out.windows[k]| == Channels(data) && |out.windows[k][c]| == width
            && out.windows[k][c][j] == data[WindowStart(k, stride) + j][c])
      && (forall k :: 0 <= k < out.count ==> IsMode(Windows(labels, width, stride)[k], out.labels[k]))
      && (forall k :: 0 <= k < |out.severity| ==>
            out.severity[k] == WindowSeverity(Windows(chorea, width, stride)[k], width))
      && |out.inclusion| == Count(stdIdx, 1)
      && (forall i :: 0 <= i < |out.inclusion| ==>
            (out.inclusion[i] == 1 <==> i < UpperLimit(|data|, stride) - overlap))
  {
    var stride := width - overlap;
    if |data| < width || |labels| < width || |chorea| < width then Failure(WindowLongerThanSeries)
    else
      var labelCount := WindowCount(|labels|, width, stride);
      var choreaCount := WindowCount(|chorea|, width, stride);
      if width < 2 || choreaCount < 2 || labelCount < 2 then Failure(DegenerateShape)
      else if Channels(data) != 3 then Failure(NotThreeChannels)
      else
        var out := WindowStreams(data, labels, chorea, width, stride, overlap, stdIdx);
        assert out.count == WindowCount(|labels|, width, stride) == |out.labels|
          && |out.windows| == WindowCount(|data|, width, stride)
          && |out.severity| == WindowCount(|chorea|, width, stride);
        Success(out)
  }

  /** The outputs of `data_windowing` once every check has passed. */
  function WindowStreams(data: seq<seq<real>>, labels: seq<int>, chorea: seq<int>, width: nat, stride: nat, overlap: nat, stdIdx: seq<int>): (out: Windowed)
    requires overlap < width <= |data| && width <= |labels| && width <= |chorea|
    requires stride == width - overlap
    requires Rectangular(data)
    ensures out.count == WindowCount(|labels|, width, stride) == |out.labels|
    ensures |out.windows| == WindowCount(|data|, width, stride)
    ensures |out.severity| == WindowCount(|chorea|, width, stride)
    ensures forall k :: 0 <= k < |out.windows| ==> WindowStart(k, stride) + width <= |data|
    ensures forall k, c, j :: 0 <= k < |out.windows| && 0 <= c < Channels(data) && 0 <= j < width ==>
      |out.windows[k]| == Channels(data) && |out.windows[k][c]| == width
      && out.windows[k][c][j] == data[WindowStart(k, stride) + j][c]
    ensures forall k :: 0 <= k < out.count ==> IsMode(Windows(labels, width, stride)[k], out.labels[k])
    ensures forall k :: 0 <= k < |out.severity| ==>
      out.severity[k] == WindowSeverity(Windows(chorea, width, stride)[k], width)
    ensures |out.inclusion| == Count(stdIdx, 1)
    ensures forall i :: 0 <= i < |out.inclusion| ==>
      (out.inclusion[i] == 1 <==> i < UpperLimit(|data|, stride) - overlap)
  {
    UpperLimitPastOverlap(|data|, width, overlap);
    Windowed(
      DataWindows(data, width, stride),
      WindowLabels(labels, width, stride),
      WindowSeverities(chorea, width, stride),
      InclusionMask(stdIdx, |data|, overlap, stride),
      WindowCount(|labels|, width, stride))
  }

  /** Streams of equal length, as the documentation asks for, give every
      output the same number of windows. */
  lemma DataWindowingEqualStreams(data: seq<seq<real>>, labels: seq<int>, chorea: seq<int>, width: nat, overlap: nat, stdIdx: seq<int>)
    requires overlap < width && Rectangular(data)
    ensures |labels| == |data| && |chorea| == |data| ==>
      var r := DataWindowing(data, labels, chorea, width, overlap, stdIdx);
      r.Success? ==> |r.value.windows| == |r.value.labels| == |r.value.severity| == r.value.count
  {
  }

  /** A sensor stream one stride shorter than its labels, as `sync_data` can
      return, yields one window fewer than the reported count. */
  lemma DataWindowingShortSensorStream(data: seq<seq<real>>, labels: seq<int>, chorea: seq<int>, width: nat, overlap: nat, stdIdx: seq<int>)
    requires overlap < width && Rectangular(data)
    ensures |labels| == |chorea| == |data| + (width - overlap) ==>
      var r := DataWindowing(data, labels, chorea, width, overlap, stdIdx);
      r.Success? ==> |r.value.windows| + 1 == r.value.count
  {
    if |labels| == |chorea| == |data| + (width - overlap) && DataWindowing(data, labels, chorea, width, overlap, stdIdx).Success? {
      assert |labels| - width >= width - overlap;
    }
  }

  // ---------------------------------------------------------------------
  // Examples

  /** Width 200, overlap 50, 700 samples: stride 150 and four windows
      starting at 0, 150, 300 and 450. */
  lemma WindowingExample()
    ensures WindowCount(700, 200, 150) == 4
    ensures WindowStart(1, 150) == 150 && WindowStart(2, 150) == 300 && WindowStart(3, 150) == 450
    ensures WindowStart(3, 150) + 200 <= 700 < WindowStart(4, 150) + 200
  {
  }

  /** The count is not `n // stride`: with 600 samples the same settings
      give three windows, while 600 // 150 is 4. */
  lemma WindowCountIsNotSeriesOverStride()
    ensures WindowCount(600, 200, 150) == 3 && 600 / 150 == 4
  {
  }

  /** A step of 100 over 607 samples ends the usable range at 600. */
  lemma UpperLimitExample()
    ensures UpperLimit(607, 100) == 600
  {
  }

  /** The ambiguous code wins when it is the most frequent, and a tie goes
      to the smaller code. */
  lemma ModeExamples()
    ensures Mode([-9, -9, 1]) == -9
    ensures Mode([1, 0, 1, 0]) == 0
  {
    var a := [-9, -9, 1];
    assert Count(a, -9) == 2 && Count(a, 1) == 1;
    var b := [1, 0, 1, 0];
    assert Count(b, 0) == 2 && Count(b, 1) == 2;
  }
}

=== FILE: wrappers.dfy ===
/** Failure-compatible result types shared by the modules of this model.
    A `Failure` stands for the exception the Python code raises. */
module Wrappers {

  datatype Option<+T> = None | Some(value: T)

  datatype Result<+T, +E> = Success(value: T) | Failure(error: E) {

    predicate IsFailure() {
      Failure?
    }

    function PropagateFailure<U>(): Result<U, E>
      requires Failure?
    {
      Failure(error)
    }

    function Extract(): T
      requires Success?
    {
      value
    }
  }
}
